=== FILE: README.md ===
# rd-catalogue-report in Dafny

This project models the classification core of the rare-disease catalogue report. The
report takes each Orphanet disease in the sample catalogue and searches the Orphanet Rare
Disease Ontology (ORDO) for the disease-category groups the disease belongs to. It then
adds the disease's sample count to a per-category counter, a per-disease counter and an
"unclassified" counter. At the end it lists the categories in descending count order,
with a total.

Four pieces are modelled, each as pure functions over immutable data:

- **ORDO rules** (`ordo.dfy`, module `Ordo`): the constant tables of relations, terminal
  nodes and inactive markers, and the predicates built from them. These are the
  "traversable relation" test, the "not a terminal node" test and the whole-node
  "main category" decision.
- **GraphDB repository** (`rdf.dfy`, `repository.dfy`, modules `Rdf` and `Repository`):
  - RDF/JSON statements. A Swift dictionary has no fixed iteration order, so it is kept
    as an association list whose order is the iteration order.
  - The construction of the statements query, with its inverse.
  - The URL-keyed cache and the statements request, whose server is a supplied function
    from URL to reply.
  - The depth-first search over subject batches, with its `.both` rule.
  - The label choice of `node(for:)`.
- **Ontology Lookup Service search** (`ols.dfy`, module `Ols`): edge selection by direction
  and the depth-first search the report uses.
  - The shared `seen` list is passed into each call and returned from it.
  - Termination is measured by the number of IRIs of a finite universe not yet seen.
- **Aggregation** (`aggregator.dfy`, module `Aggregator`):
  - The three additive counters.
  - The per-row fold over the zipped count matrix and disease labels.
  - The report's two closures.
  - The ordering, total and no-data rule of the category table.

`iris.dfy` declares the one `Iri` type, a plain string, that every module uses.
`wrappers.dfy` holds `Option`/`Result`. `seqs.dfy` holds order-preserving `Filter`, `Map`
and `NoDup`.

Four behaviours of the code are easy to misread; the model follows the code in each:
- Only a catalogue row with no count at all is skipped
  (Sources/rd-catalogue-report/Aggregator.swift:67-72). A row whose first count is zero
  is processed, and its disease's entry is created with value 0;
  `Aggregator.ZeroCountIsRecorded` shows it.
- The GraphDB search keeps no visited set
  (Sources/rd-catalogue-report/GraphDB/Repository.swift:58-97), so on a cycle of
  traversable edges it never returns. The model bounds the nesting depth of the search
  with a `fuel` parameter and answers `None` when the bound runs out; `Repository.MoreFuel`
  shows that a larger bound never changes a finished answer. Under `.incoming` the search
  recurses on the object of each statement, which is the start IRI itself;
  `Repository.IncomingRecursesOnItself` shows that no bound lets such a search succeed.
- The OLS search skips every edge into an IRI already in `seen`, including a group head
  (Sources/rd-catalogue-report/OntologyLookupService.swift:90). So an IRI is returned as
  a category only if its edge into the group comes before the search first enters that
  group; `Aggregator.LaterCategoryIsNotReturned` shows a second category under the same
  group that is not returned.
- The main-category rule accepts an edge of any predicate whose object is the group head
  (Sources/rd-catalogue-report/ORDO.swift:49), not only a subClassOf or partOf edge.

## Model

| member | source | states |
|---|---|---|
| `Ordo.IsSubClassOrPartOfRelationship` | Sources/rd-catalogue-report/ORDO.swift:29-41 | an edge is traversable iff its predicate is rdfs:subClassOf or Orphanet_C021; an edge with the legacy BFO_0000050 part-of is not accepted |
| `Ordo.IsNotATerminalNode` | Sources/rd-catalogue-report/ORDO.swift:56-58 | false exactly for Orphanet_C001, Orphanet_C041 and the group head Orphanet_557492 |
| `Ordo.NonTerminalTargetsExact` | Sources/rd-catalogue-report/ORDO.swift:51-52 | the filtered list of subClassOf targets holds exactly the objects of the subClassOf edges that point to neither a terminal node nor the head |
| `Ordo.MainCategoryCharacterization` | Sources/rd-catalogue-report/ORDO.swift:44-54 | a batch is a main category iff it is non-empty and either its first subject is C042, C050 or C046, or some edge of any predicate reaches the head and no subClassOf edge points elsewhere than C001, C041 or the head |
| `Ordo.EmptyIsNotMainCategory` | Sources/rd-catalogue-report/ORDO.swift:45 | the empty batch is not a category |
| `Ordo.InactiveIsMainCategory` | Sources/rd-catalogue-report/ORDO.swift:46-48 | a first subject among the inactive markers makes the batch a category whatever the other edges are |
| `Ordo.NoGroupHeadIsNotMainCategory` | Sources/rd-catalogue-report/ORDO.swift:49 | an active batch with no edge whose object is the head is not a category |
| `Ordo.MainCategoryPermutation` | Sources/rd-catalogue-report/ORDO.swift:44-53 | for a batch whose edges share one subject, any permutation gives the same decision |
| `Ordo.MixedSubjectsAreOrderSensitive` | Sources/rd-catalogue-report/ORDO.swift:46 | with two different subjects the decision depends on which edge comes first |
| `Rdf.BatchIsFlattening` | Sources/rd-catalogue-report/GraphDB/Repository.swift:74-84 | every edge of a subject's batch carries that subject, and an edge is in the batch iff its object is listed under its predicate |
| `Rdf.FlattenIsExact` | Sources/rd-catalogue-report/GraphDB/Repository.swift:78-84 | the same, by induction over the predicate entries |
| `Repository.QueryItems` | Sources/rd-catalogue-report/GraphDB/Repository.swift:110-124 | requires at least one constraint, which the source enforces with a fatal error; emits one to three items, named only subj, pred or obj, in that order, each value an IRI wrapped in angle brackets |
| `Repository.ParseQueryItems` | Sources/rd-catalogue-report/GraphDB/Repository.swift:112-123 | reading the items back by name, with the angle brackets stripped, recovers exactly the query's three optional constraints |
| `Repository.StatementsUrlInjective` | Sources/rd-catalogue-report/GraphDB/Repository.swift:108-127 | two queries with the same request URL are the same query, so distinct queries never share a cache entry |
| `Repository.Read` | Sources/rd-catalogue-report/GraphDB/Repository.swift:35-40 | a URL reads a value exactly when one is stored under it |
| `Repository.Update` | Sources/rd-catalogue-report/GraphDB/Repository.swift:42-44 | after an update the key reads the new value and every other key reads as before |
| `Repository.EmptyCacheReadsNothing` | Sources/rd-catalogue-report/GraphDB/Repository.swift:29-40 | a never-written key reads nil |
| `Repository.Receive` | Sources/rd-catalogue-report/GraphDB/Repository.swift:134-148 | only a 200 reply whose body decodes succeeds, with that body; a transport failure passes through, any other status is `httpError`, an undecodable 200 body is `decoding` |
| `Repository.Statements` | Sources/rd-catalogue-report/GraphDB/Repository.swift:107-149 | a cached URL is answered from the cache; otherwise a non-200 reply is `httpError`, an undecodable 200 reply is `decoding` and a transport failure passes through, each leaving the cache unchanged; a decoded 200 reply is returned and stored under its URL |
| `Repository.CachedAnswerIgnoresServer` | Sources/rd-catalogue-report/GraphDB/Repository.swift:130-132 | a cached URL's answer does not depend on the server at all |
| `Repository.RepeatIsServedFromCache` | Sources/rd-catalogue-report/GraphDB/Repository.swift:130-142 | repeating a request that succeeded returns the same result and cache whatever the server would now reply |
| `Repository.CacheIsTransparent` | Sources/rd-catalogue-report/GraphDB/Repository.swift:130-148 | if every cached entry is what the server answers, a request returns the server's answer and the cache stays so |
| `Repository.NodeQuery` | Sources/rd-catalogue-report/GraphDB/Repository.swift:60-64 | the query for outgoing constrains only the subject to the IRI, the query for incoming only the object |
| `Repository.DepthFirstSearch` | Sources/rd-catalogue-report/GraphDB/Repository.swift:58-97 | `.both` runs the outgoing search first and returns its outcome unless it succeeded; then it returns the incoming outcome unless that succeeded too, and otherwise the union of both results; a single-direction search whose fetch fails fails with the fetch's error; with no bound left a single-direction search does not finish |
| `Repository.SearchEdgesSound` | Sources/rd-catalogue-report/GraphDB/Repository.swift:90-94 | following a batch's edges keeps what was found, includes every traversable edge's search result (all of which succeeded) and adds nothing else |
| `Repository.SearchSubjectsComplete` | Sources/rd-catalogue-report/GraphDB/Repository.swift:74-95 | every subject whose batch matches, and every traversable edge's search result, is in the result |
| `Repository.SearchSubjectsSound` | Sources/rd-catalogue-report/GraphDB/Repository.swift:74-95 | every result element is a matching subject or was found by a search from a traversable edge's object |
| `Repository.SearchCharacterization` | Sources/rd-catalogue-report/GraphDB/Repository.swift:71-96 | a successful search fetched its statements; a subject is in the result if its batch matches; the result is exactly those subjects united with the results of searching, one nesting level down, from `edge.object.value` of every traversable edge, all of which succeeded |
| `Repository.SearchFinishes` | Sources/rd-catalogue-report/GraphDB/Repository.swift:71-96 | conversely, once the statements are fetched and every search from a traversable edge's object succeeds, the search succeeds |
| `Repository.SearchErrorIsFetched` | Sources/rd-catalogue-report/GraphDB/Repository.swift:58-97 | a search that fails does so with an error that a statements request for some node returned, in the search's direction (either direction for `.both`): a nested search's error is passed up unchanged |
| `Repository.MoreFuel` | Sources/rd-catalogue-report/GraphDB/Repository.swift:58-97 | a search that finished within a bound finishes with the same outcome under every larger bound, so the bound only decides whether the search finishes |
| `Repository.RankedSearchFinishes` | Sources/rd-catalogue-report/GraphDB/Repository.swift:90-94 | a sufficient condition for finishing: when some rank decreases along every traversable edge of every fetched batch, a bound above the start's rank is never reached |
| `Repository.IncomingRecursesOnItself` | Sources/rd-catalogue-report/GraphDB/Repository.swift:61-92 | a traversable incoming statement whose object is the start IRI makes the search re-enter its own start, so neither the `.incoming` nor the `.both` search from it succeeds under any bound |
| `Repository.SubjectEntry` | Sources/rd-catalogue-report/GraphDB/Repository.swift:101 | finds the predicates of the subject when it is present and reports absence exactly when no entry has that subject |
| `Repository.PredicateEntry` | Sources/rd-catalogue-report/GraphDB/Repository.swift:102 | finds the objects of the label predicate when present and reports absence exactly when no entry has it |
| `Repository.FirstEnglish` | Sources/rd-catalogue-report/GraphDB/Repository.swift:103 | the index of the first label whose language is "en", or none iff there is no such label |
| `Repository.ChooseLabel` | Sources/rd-catalogue-report/GraphDB/Repository.swift:103-104 | the first English label if any, else the first label, else "N/A" |
| `Repository.NodeFor` | Sources/rd-catalogue-report/GraphDB/Repository.swift:99-105 | a fetch error passes through; a missing subject key or missing label predicate is `decoding`; otherwise the node carries the chosen label |
| `Ols.SelectEdges` | Sources/rd-catalogue-report/OntologyLookupService.swift:102-114 | keeps exactly the edges with `source == iri` for outgoing, `target == iri` for incoming, and all edges for both |
| `Ols.SelectEdgesKeepsOrder` | Sources/rd-catalogue-report/OntologyLookupService.swift:105-112 | selection distributes over splitting the edge list, so it preserves the graph's order |
| `Ols.Search` | Sources/rd-catalogue-report/OntologyLookupService.swift:84-100 | terminates over a closed finite universe; a failed graph lookup fails the call; `seen` grows only by appending and starts with the entered IRI; under `.incoming` nothing is found and only the start is entered |
| `Ols.Walk` | Sources/rd-catalogue-report/OntologyLookupService.swift:89-98 | examining edges only appends to the found list and to `seen`; if every remaining target is already seen the state is returned unchanged |
| `Ols.WalkExamines` | Sources/rd-catalogue-report/OntologyLookupService.swift:89-97 | an edge whose target is already seen is skipped; otherwise a matching edge's source is the next found entry, and a traversable edge's target is entered |
| `Ols.SearchEnters` | Sources/rd-catalogue-report/OntologyLookupService.swift:84-98 | a search enters only IRIs of the universe |
| `Ols.SearchNoRepeat` | Sources/rd-catalogue-report/OntologyLookupService.swift:85-95 | a duplicate-free `seen` stays duplicate-free, so no IRI is entered twice |
| `Ols.SearchExplains` | Sources/rd-catalogue-report/OntologyLookupService.swift:89-96 | every found element is the source of a matching edge selected at an entered IRI |
| `Ols.SearchSettles` | Sources/rd-catalogue-report/OntologyLookupService.swift:84-100 | when a search returns, every IRI it entered is settled: each of its selected edges leads into `seen` if traversable, and has its source found if it matches and leads outside `seen` |
| `Ols.WalkSettles` | Sources/rd-catalogue-report/OntologyLookupService.swift:89-98 | a walk covers every edge it examines in that sense and settles every IRI it entered |
| `Ols.DepthFirstSearch` | Sources/rd-catalogue-report/OntologyLookupService.swift:52-55 | starting from an empty `seen`: a failed lookup at the start fails; a successful search enters the start first, no IRI twice and only IRIs of the universe; every result is the source of a matching edge at an entered IRI; every entered IRI is settled; every IRI entered after the start was entered through a traversable edge selected at an earlier entered IRI, and that edge's source is a result if the edge matches; an incoming search returns nothing |
| `Ols.SearchWitnesses` | Sources/rd-catalogue-report/OntologyLookupService.swift:89-96 | every IRI a search enters after its start was entered through a traversable edge selected at an IRI entered before it, whose source was found if the edge matches |
| `Ols.WalkWitnesses` | Sources/rd-catalogue-report/OntologyLookupService.swift:89-96 | the same for every IRI a walk enters |
| `Ols.SearchLogged` | Sources/rd-catalogue-report/OntologyLookupService.swift:89-96 | a search's results are exactly the sources of the matching edges among those it examines (every edge reached whose target was not yet entered, followed by the edges the search it starts examines), once each and in that order |
| `Ols.WalkLogged` | Sources/rd-catalogue-report/OntologyLookupService.swift:89-97 | the same for a walk: it appends exactly the sources of the matching edges it examines |
| `Ols.SearchLogBound` | Sources/rd-catalogue-report/OntologyLookupService.swift:85-96 | in an outgoing search the examined edges leaving `x` that match are at most the matching edges selected at `x`, and there are none unless the search entered `x` |
| `Ols.ResultMultiplicity` | Sources/rd-catalogue-report/OntologyLookupService.swift:89-96 | an outgoing search returns an IRI at most as many times as that IRI has matching outgoing edges, so the report adds a disease's count to a category at most once per such edge |
| `Ols.ReachableIsEntered` | Sources/rd-catalogue-report/OntologyLookupService.swift:84-98 | a successful search enters every IRI reachable from its start along traversable selected edges |
| `Aggregator.Add` | Sources/rd-catalogue-report/Aggregator.swift:32 | adds the count to the key's value, defaulting to 0, and leaves every other key unchanged |
| `Aggregator.UpdateGroup` | Sources/rd-catalogue-report/Aggregator.swift:39-41 | adds to the category counter only; the other two counters are unchanged |
| `Aggregator.UpdateDisease` | Sources/rd-catalogue-report/Aggregator.swift:35-37 | adds to the disease counter only; the other two counters are unchanged |
| `Aggregator.UpdateUnclassified` | Sources/rd-catalogue-report/Aggregator.swift:31-33 | adds to the unclassified counter only; the other two counters are unchanged |
| `Aggregator.AddAllSums` | Sources/rd-catalogue-report/Aggregator.swift:26-41 | after any sequence of updates a key's count is its start value plus the sum of the counts passed for it |
| `Aggregator.AddAllKeys` | Sources/rd-catalogue-report/Aggregator.swift:26-41 | the counted keys are the starting keys and the keys updated |
| `Aggregator.AddAllOrderIndependent` | Sources/rd-catalogue-report/Aggregator.swift:26-41 | any reordering of the same updates gives the same counters |
| `Aggregator.Zip` | Sources/rd-catalogue-report/Aggregator.swift:64 | pairs the matrix rows with the labels up to the shorter length |
| `Aggregator.CountGroups` | Sources/rd-catalogue-report/Aggregator.swift:81-83 | each returned group, duplicates included, adds the count once per occurrence to the category counter, whose keys become the old keys plus the returned groups; the other counters are unchanged |
| `Aggregator.ProcessRow` | Sources/rd-catalogue-report/Aggregator.swift:64-87 | a row without the "urn:miriam:orphanet" prefix or with no counts changes nothing; otherwise only its first count goes to `Orphanet_<code>` in the disease counter, even when the search threw; an empty result goes to the unclassified counter; a non-empty one goes to the category counter once per occurrence, adding exactly the returned groups to its keys |
| `Aggregator.SpreadSums` | Sources/rd-catalogue-report/Aggregator.swift:81-83 | one update per returned group sums to the count times the group's occurrences |
| `Aggregator.ProcessPairsCountsDiseases` | Sources/rd-catalogue-report/Aggregator.swift:64-72 | folding the rows applies exactly the processed rows' disease updates, in order |
| `Aggregator.DiseaseTotals` | Sources/rd-catalogue-report/Aggregator.swift:64-72 | a disease's final count is the sum of the first counts of its processed rows within the zipped prefix |
| `Aggregator.ProcessPairsCountsCategories` | Sources/rd-catalogue-report/Aggregator.swift:74-84 | folding the rows adds, for each category, the count of every row whose search returned it, once per occurrence |
| `Aggregator.CategoryTotals` | Sources/rd-catalogue-report/Aggregator.swift:78-84 | the same over the zipped matrix and labels |
| `Aggregator.ProcessPairsCountsUnclassified` | Sources/rd-catalogue-report/Aggregator.swift:73-80 | folding the rows applies exactly one unclassified update per processed row whose search returned no group, in order |
| `Aggregator.UnclassifiedTotals` | Sources/rd-catalogue-report/Aggregator.swift:78-80 | a disease's unclassified count is the sum of the counts of its processed rows whose search returned no group; a thrown search or a non-empty result adds nothing |
| `Aggregator.ZeroCountIsRecorded` | Sources/rd-catalogue-report/Aggregator.swift:67-72 | a row whose first count is 0 still creates its disease's entry, with value 0 |
| `Aggregator.SharedCategoryAddsUp` | Sources/rd-catalogue-report/Aggregator.swift:81-83 | two diseases classified into the same category with counts 5 and 7 leave it at 12 |
| `Aggregator.ShouldTraverse` | Sources/rd-catalogue-report/Aggregator.swift:74-76 | an edge is followed iff its uri is C021, BFO_0000050 or subClassOf and its target is not Orphanet_557492 |
| `Aggregator.IsMatch` | Sources/rd-catalogue-report/Aggregator.swift:77 | an edge matches iff its target is Orphanet_557492, C051 or C043 |
| `Aggregator.ClassifiedCategoriesPointIntoGroups` | Sources/rd-catalogue-report/Aggregator.swift:74-77 | with these closures every category an outgoing search returns is an IRI it entered with an edge into one of the three groups; conversely every entered IRI with an edge into a group the search did not enter is returned; and every group entered after the start has a returned IRI with an edge into it |
| `Aggregator.GroupEdgeClassifies` | Sources/rd-catalogue-report/Aggregator.swift:74-80 | a disease with an edge of its own into one of the three groups gets at least one category, so it is never counted as unclassified |
| `Aggregator.LaterCategoryIsNotReturned` | Sources/rd-catalogue-report/OntologyLookupService.swift:89-92 | with `S` under `X` and `Y`, both under C051, the search enters `X`, C051 and `Y` in that order and returns `X` alone: an IRI whose edge leads into a group already entered is not a category |
| `Aggregator.Insert` | Sources/rd-catalogue-report/Aggregator.swift:51 | inserting into a non-increasing listing keeps it non-increasing and adds exactly that row |
| `Aggregator.SortByCount` | Sources/rd-catalogue-report/Aggregator.swift:51 | the rows in non-increasing count order, as a permutation of the input |
| `Aggregator.Entries` | Sources/rd-catalogue-report/Aggregator.swift:51 | lists every entry of the map exactly once |
| `Aggregator.ListingsAgree` | Sources/rd-catalogue-report/Aggregator.swift:51 | any two listings of one map hold the same rows |
| `Aggregator.SumCountsPermutation` | Sources/rd-catalogue-report/Aggregator.swift:55 | the total does not depend on the order of the rows |
| `Aggregator.PrintStatistics` | Sources/rd-catalogue-report/Aggregator.swift:48-56 | an empty map is rejected with `noData`; otherwise every entry appears once in non-increasing count order, and the total is the sum of the counts of any listing of the map |

## Left out

- HTTP, `URLSession`, JSON decoding and `URLComponents` percent-encoding are not modelled.
  A GraphDB reply arrives already decoded or marked undecodable, and a request URL is a
  structured value.
- The failed `HTTPURLResponse` cast is not modelled. Every reply is an HTTP reply, and
  that cast can only lead to `httpError` anyway.
- Actor isolation, `async`/`await` and concurrency are not modelled. The main loop awaits
  each call in sequence, so sequential state is faithful.
- The `NSCache` caches of the Ontology Lookup Service can evict, so they promise nothing.
  Graph lookup is a pure function of the IRI. `node(for:)` of that service is a plain
  download and is not modelled.
- Printing and CSV formatting are not modelled. Neither are the per-row `ols.node`
  lookups in `printStatistics` or the "Diseases:" and "Unclassified:" summary lines after
  it.
- The legacy DispatchGroup script `main.swift` is not part of this model. It was replaced
  by `Aggregator`.
- `SampleCatalogue.swift`, `Disease.swift` and `URL+Extensions.swift` are not part of this
  model. They are the HTTP client, the decodable record and a Foundation initializer. The
  catalogue's matrix and labels are given as values.
- Aggregator.ProcessRow: takes the search outcome per disease as a supplied function, with
  `None` when the search threw. `Aggregator.ClassifiedCategoriesPointIntoGroups` connects
  the report's closures to `Ols.DepthFirstSearch`.
- Aggregator.ProcessRow: assumes `URL(string:)!` succeeds. A disease code that makes an
  invalid URL crashes the source.
- Aggregator.Add: counts are unbounded integers. The Swift `+=` on 64-bit `Int` traps on
  overflow.
- Repository.DepthFirstSearch: takes a bound on the nesting depth that the source does
  not have, and answers `None` when the bound runs out. The source keeps no visited set
  and recurses without end on a cycle of traversable edges, and under `.incoming` on any
  traversable statement at all; the model shows that no bound makes such a search
  succeed, not that the source never returns.
- Repository.DepthFirstSearch: with association lists the two
  `guard let … else { throw GraphDBError.decoding }` lookups at lines 76 and 79 cannot
  fail. They are not modelled.
- Ols.Search: assumes a finite universe of IRIs that contains every target any fetched
  graph mentions. The source needs no such assumption to run, but without one it need not
  terminate.
- Aggregator.PrintStatistics: Swift's `sorted(by:)` is not stable. The model fixes one
  order among equal counts and promises only that counts do not increase.
- Aggregator.ProcessRow: the prefix test and every IRI comparison compare Unicode code
  points. Swift's `starts(with:)` and `String ==` compare grapheme clusters under
  canonical equivalence, so a catalogue IRI "urn:miriam:orphanet" followed by U+0301
  (combining acute accent) and ":1" is skipped by the source
  (Sources/rd-catalogue-report/Aggregator.swift:66) but processed by the model.
- Repository.SubjectEntry: RDF/JSON is an association list that may repeat a subject or
  predicate key, which a decoded Swift dictionary cannot. Lookups take the first entry and
  batches take every entry; lists with repeated keys have no counterpart in the source.
- `Object.type` and `Object.dataType` are kept in the data but no modelled operation
  reads them, as in the source.

=== FILE: aggregator.dfy ===
/** The report driver: per-disease classification results are folded into three
    counters, and the category counter is listed in descending order with a total. */
module Aggregator {
  import opened Wrappers
  import opened Seqs
  import opened Iris
  import Ols

  const DiseaseGroup: Iri := "http://www.orpha.net/ORDO/Orphanet_557492"
  const ObsoleteGroup: Iri := "http://www.orpha.net/ORDO/Orphanet_C051"
  const DeprecatedGroup: Iri := "http://www.orpha.net/ORDO/Orphanet_C043"
  const Groups: seq<Iri> := [DiseaseGroup, ObsoleteGroup, DeprecatedGroup]

  const PartOf: Iri := "http://www.orpha.net/ORDO/Orphanet_C021"
  const LegacyPartOf: Iri := "http://purl.obolibrary.org/obo/BFO_0000050"
  const SubClassOf: Iri := "http://www.w3.org/2000/01/rdf-schema#subClassOf"
  const Relations: seq<Iri> := [PartOf, LegacyPartOf, SubClassOf]

  /** Catalogue rows whose IRI lacks this prefix are not Orphanet diseases. */
  const OrphanetPrefix: string := "urn:miriam:orphanet"
  const OrphanetIri: string := "http://www.orpha.net/ORDO/Orphanet_"

  // ---------------------------------------------------------------- counters

  /** A counter's value, 0 for a key never counted. */
  function Get(m: map<Iri, int>, k: Iri): int {
    if k in m then m[k] else 0
  }

  /** Adds `n` to the value of `k`, starting from 0. */
  function Add(m: map<Iri, int>, k: Iri, n: int): (r: map<Iri, int>)
    ensures r.Keys == m.Keys + {k}
    ensures Get(r, k) == Get(m, k) + n
    ensures forall j :: j != k ==> Get(r, j) == Get(m, j)
  {
    m[k := Get(m, k) + n]
  }

  datatype Statistics = Statistics(perCategory: map<Iri, int>, perDisease: map<Iri, int>, unclassified: map<Iri, int>)

  const NoCounts: Statistics := Statistics(map[], map[], map[])

  function UpdateGroup(s: Statistics, url: Iri, count: int): (r: Statistics)
    ensures r.perDisease == s.perDisease && r.unclassified == s.unclassified
    ensures r.perCategory.Keys == s.perCategory.Keys + {url}
    ensures Get(r.perCategory, url) == Get(s.perCategory, url) + count
    ensures forall k :: k != url ==> Get(r.perCategory, k) == Get(s.perCategory, k)
  {
    s.(perCategory := Add(s.perCategory, url, count))
  }

  function UpdateDisease(s: Statistics, url: Iri, count: int): (r: Statistics)
    ensures r.perCategory == s.perCategory && r.unclassified == s.unclassified
    ensures r.perDisease.Keys == s.perDisease.Keys + {url}
    ensures Get(r.perDisease, url) == Get(s.perDisease, url) + count
    ensures forall k :: k != url ==> Get(r.perDisease, k) == Get(s.perDisease, k)
  {
    s.(perDisease := Add(s.perDisease, url, count))
  }

  function UpdateUnclassified(s: Statistics, url: Iri, count: int): (r: Statistics)
    ensures r.perCategory == s.perCategory && r.perDisease == s.perDisease
    ensures r.unclassified.Keys == s.unclassified.Keys + {url}
    ensures Get(r.unclassified, url) == Get(s.unclassified, url) + count
    ensures forall k :: k != url ==> Get(r.unclassified, k) == Get(s.unclassified, k)
  {
    s.(unclassified := Add(s.unclassified, url, count))
  }

  /** One call of a counter's update. */
  datatype Update = Update(key: Iri, count: int)

  /** Applies the updates in order. */
  function AddAll(m: map<Iri, int>, ups: seq<Update>): map<Iri, int>
    decreases |ups|
  {
    if |ups| == 0 then m else AddAll(Add(m, ups[0].key, ups[0].count), ups[1..])
  }

  /** The sum of the counts passed for `k`. */
  function SumFor(ups: seq<Update>, k: Iri): int {
    if |ups| == 0 then 0 else (if ups[0].key == k then ups[0].count else 0) + SumFor(ups[1..], k)
  }

  function KeysOf(ups: seq<Update>): set<Iri> {
    set u | u in ups :: u.key
  }

  /** A key's final count is its starting count plus every count passed for it. */
  lemma {:induction false} AddAllSums(m: map<Iri, int>, ups: seq<Update>, k: Iri)
    ensures Get(AddAll(m, ups), k) == Get(m, k) + SumFor(ups, k)
    decreases |ups|
  {
    if |ups| > 0 {
      AddAllSums(Add(m, ups[0].key, ups[0].count), ups[1..], k);
    }
  }

  /** The counted keys are the starting keys and the keys of the updates. */
  lemma {:induction false} AddAllKeys(m: map<Iri, int>, ups: seq<Update>)
    ensures AddAll(m, ups).Keys == m.Keys + KeysOf(ups)
    decreases |ups|
  {
    if |ups| > 0 {
      AddAllKeys(Add(m, ups[0].key, ups[0].count), ups[1..]);
      assert KeysOf(ups) == {ups[0].key} + KeysOf(ups[1..]) by {
        assert forall u :: u in ups <==> u == ups[0] || u in ups[1..];
      }
    }
  }

  lemma {:induction false} AddAllConcat(m: map<Iri, int>, a: seq<Update>, b: seq<Update>)
    ensures AddAll(m, a + b) == AddAll(AddAll(m, a), b)
    decreases |a|
  {
    if |a| == 0 {
      assert a + b == b;
    } else {
      assert (a + b)[1..] == a[1..] + b;
      AddAllConcat(Add(m, a[0].key, a[0].count), a[1..], b);
    }
  }

  lemma {:induction false} SumForConcat(a: seq<Update>, b: seq<Update>, k: Iri)
    ensures SumFor(a + b, k) == SumFor(a, k) + SumFor(b, k)
  {
    if |a| == 0 {
      assert a + b == b;
    } else {
      assert (a + b)[1..] == a[1..] + b;
      SumForConcat(a[1..], b, k);
    }
  }

  /** Removing the element at `j` leaves the rest of the multiset. */
  lemma RemoveAtMultiset<T>(b: seq<T>, j: nat)
    requires j < |b|
    ensures multiset(b[..j] + b[j + 1..]) == multiset(b) - multiset{b[j]}
  {
    assert b == b[..j] + [b[j]] + b[j + 1..];
    assert multiset(b) == multiset(b[..j]) + multiset{b[j]} + multiset(b[j + 1..]);
  }

  /** Removing the update at `j` takes its share out of the total for `k`. */
  lemma RemoveAtSum(b: seq<Update>, j: nat, k: Iri)
    requires j < |b|
    ensures SumFor(b, k) == SumFor(b[..j] + b[j + 1..], k) + (if b[j].key == k then b[j].count else 0)
  {
    assert b == b[..j] + [b[j]] + b[j + 1..];
    SumForConcat(b[..j] + [b[j]], b[j + 1..], k);
    SumForConcat(b[..j], [b[j]], k);
    SumForConcat(b[..j], b[j + 1..], k);
    assert SumFor([b[j]], k) == (if b[j].key == k then b[j].count else 0) by {
      assert [b[j]][1..] == [];
    }
  }

  lemma {:induction false} SumForPermutation(a: seq<Update>, b: seq<Update>, k: Iri)
    requires multiset(a) == multiset(b)
    ensures SumFor(a, k) == SumFor(b, k)
    decreases |a|
  {
    if |a| == 0 {
      assert |b| == |multiset(b)| == 0;
    } else {
      assert a[0] in multiset(b);
      var j :| 0 <= j < |b| && b[j] == a[0];
      assert a == [a[0]] + a[1..];
      assert multiset(a[1..]) == multiset(a) - multiset{a[0]};
      RemoveAtMultiset(b, j);
      SumForPermutation(a[1..], b[..j] + b[j + 1..], k);
      RemoveAtSum(b, j, k);
    }
  }

  /** The counters are order-independent: any reordering of the same updates gives the
      same final counts. */
  lemma AddAllOrderIndependent(m: map<Iri, int>, a: seq<Update>, b: seq<Update>)
    requires multiset(a) == multiset(b)
    ensures AddAll(m, a) == AddAll(m, b)
  {
    AddAllKeys(m, a);
    AddAllKeys(m, b);
    assert KeysOf(a) == KeysOf(b) by {
      forall u ensures u in a <==> u in b {
        assert u in a <==> u in multiset(a);
        assert u in b <==> u in multiset(b);
      }
    }
    forall k | k in AddAll(m, a) ensures AddAll(m, a)[k] == AddAll(m, b)[k] {
      AddAllSums(m, a, k);
      AddAllSums(m, b, k);
      SumForPermutation(a, b, k);
    }
  }

  // ---------------------------------------------------------------- rows

  /** A catalogue disease descriptor. */
  datatype Disease = Disease(iri: string, preferredTerm: string, id: string, code: string)

  /** The outcome of classifying one disease: `None` when the search threw. */
  type Classifier = Iri -> Option<seq<Iri>>

  function DiseaseUrl(code: string): Iri {
    OrphanetIri + code
  }

  /** Pairs the two lists up to the length of the shorter. */
  function Zip<A, B>(a: seq<A>, b: seq<B>): (r: seq<(A, B)>)
    ensures |r| == if |a| < |b| then |a| else |b|
    ensures forall i :: 0 <= i < |r| ==> r[i] == (a[i], b[i])
  {
    if |a| == 0 || |b| == 0 then [] else [(a[0], b[0])] + Zip(a[1..], b[1..])
  }

  /** The first group's share of `count` times its multiplicity. */
  lemma ScaledMultiplicity(groups: seq<Iri>, count: int, k: Iri)
    requires |groups| > 0
    ensures count * multiset(groups)[k] == count * multiset(groups[1..])[k] + (if k == groups[0] then count else 0)
  {
    assert groups == [groups[0]] + groups[1..];
    var c := multiset(groups[1..])[k];
    if k == groups[0] {
      assert multiset(groups)[k] == c + 1;
      assert count * (c + 1) == count * c + count;
    } else {
      assert multiset(groups)[k] == c;
    }
  }

  /** Adds `count` to the category counter once per occurrence in `groups`. */
  function CountGroups(s: Statistics, groups: seq<Iri>, count: int): (r: Statistics)
    ensures r.perDisease == s.perDisease && r.unclassified == s.unclassified
    ensures forall k :: Get(r.perCategory, k) == Get(s.perCategory, k) + count * multiset(groups)[k]
    ensures r.perCategory.Keys == s.perCategory.Keys + (set g | g in groups)
    decreases |groups|
  {
    if |groups| == 0 then s
    else
      var next := UpdateGroup(s, groups[0], count);
      var r := CountGroups(next, groups[1..], count);
      CountsAfterHead(s.perCategory, next.perCategory, r.perCategory, groups, count);
      ElementsAfterHead(groups);
      r
  }

  /** Counting the first group, then the rest, counts every group. */
  lemma CountsAfterHead(m: map<Iri, int>, next: map<Iri, int>, r: map<Iri, int>, groups: seq<Iri>, count: int)
    requires |groups| > 0
    requires forall k :: Get(next, k) == Get(m, k) + (if k == groups[0] then count else 0)
    requires forall k :: Get(r, k) == Get(next, k) + count * multiset(groups[1..])[k]
    ensures forall k :: Get(r, k) == Get(m, k) + count * multiset(groups)[k]
  {
    forall k ensures Get(r, k) == Get(m, k) + count * multiset(groups)[k] {
      ScaledMultiplicity(groups, count, k);
    }
  }

  lemma ElementsAfterHead<T>(s: seq<T>)
    requires |s| > 0
    ensures (set x | x in s) == {s[0]} + (set x | x in s[1..])
  {
    assert s == [s[0]] + s[1..];
  }

  /** Whether a catalogue row is counted at all. */
  predicate Processed(counts: seq<int>, d: Disease) {
    OrphanetPrefix <= d.iri && |counts| > 0
  }

  /** One iteration of the main loop. */
  function ProcessRow(s: Statistics, classify: Classifier, counts: seq<int>, d: Disease): (r: Statistics)
    ensures !Processed(counts, d) ==> r == s
    ensures Processed(counts, d) ==>
      var url, n := DiseaseUrl(d.code), counts[0];
      && r.perDisease == Add(s.perDisease, url, n)
      && (classify(url).None? ==> r.perCategory == s.perCategory && r.unclassified == s.unclassified)
      && (classify(url) == Some([]) ==> r.perCategory == s.perCategory && r.unclassified == Add(s.unclassified, url, n))
      && (classify(url).Some? && |classify(url).value| > 0 ==>
            && r.unclassified == s.unclassified
            && r.perCategory.Keys == s.perCategory.Keys + (set g | g in classify(url).value)
            && forall k :: Get(r.perCategory, k) == Get(s.perCategory, k) + n * multiset(classify(url).value)[k])
  {
    if !(OrphanetPrefix <= d.iri) then s
    else if |counts| == 0 then s
    else
      var url, n := DiseaseUrl(d.code), counts[0];
      var counted := UpdateDisease(s, url, n);
      match classify(url)
      case None => counted
      case Some(groups) =>
        if |groups| == 0 then UpdateUnclassified(counted, url, n)
        else CountGroups(counted, groups, n)
  }

  function ProcessPairs(s: Statistics, classify: Classifier, rows: seq<(seq<int>, Disease)>): Statistics
    decreases |rows|
  {
    if |rows| == 0 then s else ProcessPairs(ProcessRow(s, classify, rows[0].0, rows[0].1), classify, rows[1..])
  }

  /** The main loop over the catalogue's count matrix and disease labels. */
  function ProcessRows(s: Statistics, classify: Classifier, matrix: seq<seq<int>>, labels: seq<Disease>): Statistics {
    ProcessPairs(s, classify, Zip(matrix, labels))
  }

  /** The disease-counter updates the rows make, in order. */
  function DiseaseUpdates(rows: seq<(seq<int>, Disease)>): seq<Update> {
    if |rows| == 0 then []
    else
      (if Processed(rows[0].0, rows[0].1) then [Update(DiseaseUrl(rows[0].1.code), rows[0].0[0])] else [])
      + DiseaseUpdates(rows[1..])
  }

  lemma {:induction false} ProcessPairsCountsDiseases(s: Statistics, classify: Classifier, rows: seq<(seq<int>, Disease)>)
    ensures ProcessPairs(s, classify, rows).perDisease == AddAll(s.perDisease, DiseaseUpdates(rows))
    decreases |rows|
  {
    if |rows| > 0 {
      var head := if Processed(rows[0].0, rows[0].1) then [Update(DiseaseUrl(rows[0].1.code), rows[0].0[0])] else [];
      var next := ProcessRow(s, classify, rows[0].0, rows[0].1);
      ProcessPairsCountsDiseases(next, classify, rows[1..]);
      AddAllConcat(s.perDisease, head, DiseaseUpdates(rows[1..]));
      assert next.perDisease == AddAll(s.perDisease, head) by {
        if Processed(rows[0].0, rows[0].1) {
          assert AddAll(s.perDisease, head) == AddAll(next.perDisease, []);
        }
      }
    }
  }

  /** Every processed row's first count reaches the disease counter, whatever its
      classification did, so a disease's final count is the sum of its rows' counts
      over the zipped prefix. */
  lemma DiseaseTotals(s: Statistics, classify: Classifier, matrix: seq<seq<int>>, labels: seq<Disease>, url: Iri)
    ensures Get(ProcessRows(s, classify, matrix, labels).perDisease, url) ==
            Get(s.perDisease, url) + SumFor(DiseaseUpdates(Zip(matrix, labels)), url)
  {
    ProcessPairsCountsDiseases(s, classify, Zip(matrix, labels));
    AddAllSums(s.perDisease, DiseaseUpdates(Zip(matrix, labels)), url);
  }

  /** One category-counter update per returned group, duplicates included. */
  function Spread(groups: seq<Iri>, n: int): seq<Update> {
    if |groups| == 0 then [] else [Update(groups[0], n)] + Spread(groups[1..], n)
  }

  lemma {:induction false} SpreadSums(groups: seq<Iri>, n: int, k: Iri)
    ensures SumFor(Spread(groups, n), k) == n * multiset(groups)[k]
  {
    if |groups| > 0 {
      SpreadSums(groups[1..], n, k);
      SpreadStep(groups, n, k);
      var c := multiset(groups[1..])[k];
      if groups[0] == k {
        Distribute(n, c);
      }
    }
  }

  lemma SpreadStep(groups: seq<Iri>, n: int, k: Iri)
    requires |groups| > 0
    ensures SumFor(Spread(groups, n), k) == (if groups[0] == k then n else 0) + SumFor(Spread(groups[1..], n), k)
    ensures multiset(groups)[k] == (if groups[0] == k then 1 else 0) + multiset(groups[1..])[k]
  {
    assert groups == [groups[0]] + groups[1..];
    var spread := Spread(groups, n);
    assert spread[0] == Update(groups[0], n) && spread[1..] == Spread(groups[1..], n);
  }

  lemma Distribute(n: int, c: int)
    ensures n * (1 + c) == n + n * c
  {
  }

  /** The category-counter updates the rows make, in order. */
  function CategoryUpdates(classify: Classifier, rows: seq<(seq<int>, Disease)>): seq<Update> {
    if |rows| == 0 then []
    else
      var (counts, d) := rows[0];
      var url := DiseaseUrl(d.code);
      (if Processed(counts, d) && classify(url).Some? then Spread(classify(url).value, counts[0]) else [])
      + CategoryUpdates(classify, rows[1..])
  }

  lemma {:induction false} ProcessPairsCountsCategories(s: Statistics, classify: Classifier, rows: seq<(seq<int>, Disease)>, k: Iri)
    ensures Get(ProcessPairs(s, classify, rows).perCategory, k) == Get(s.perCategory, k) + SumFor(CategoryUpdates(classify, rows), k)
    decreases |rows|
  {
    if |rows| > 0 {
      var (counts, d) := rows[0];
      var url := DiseaseUrl(d.code);
      var head := if Processed(counts, d) && classify(url).Some? then Spread(classify(url).value, counts[0]) else [];
      var next := ProcessRow(s, classify, counts, d);
      ProcessPairsCountsCategories(next, classify, rows[1..], k);
      SumForConcat(head, CategoryUpdates(classify, rows[1..]), k);
      if Processed(counts, d) && classify(url).Some? {
        SpreadSums(classify(url).value, counts[0], k);
      }
    }
  }

  /** A category's final count is the sum, over the rows that classified into it, of the
      row's count once per time the category was returned. */
  lemma CategoryTotals(s: Statistics, classify: Classifier, matrix: seq<seq<int>>, labels: seq<Disease>, k: Iri)
    ensures Get(ProcessRows(s, classify, matrix, labels).perCategory, k) ==
            Get(s.perCategory, k) + SumFor(CategoryUpdates(classify, Zip(matrix, labels)), k)
  {
    ProcessPairsCountsCategories(s, classify, Zip(matrix, labels), k);
  }

  /** The unclassified-counter updates the rows make, in order: one per processed row
      whose search returned no group. */
  function UnclassifiedUpdates(classify: Classifier, rows: seq<(seq<int>, Disease)>): seq<Update> {
    if |rows| == 0 then []
    else
      var (counts, d) := rows[0];
      var url := DiseaseUrl(d.code);
      (if Processed(counts, d) && classify(url) == Some([]) then [Update(url, counts[0])] else [])
      + UnclassifiedUpdates(classify, rows[1..])
  }

  lemma {:induction false} ProcessPairsCountsUnclassified(s: Statistics, classify: Classifier, rows: seq<(seq<int>, Disease)>)
    ensures ProcessPairs(s, classify, rows).unclassified == AddAll(s.unclassified, UnclassifiedUpdates(classify, rows))
    decreases |rows|
  {
    if |rows| > 0 {
      var (counts, d) := rows[0];
      var url := DiseaseUrl(d.code);
      var head := if Processed(counts, d) && classify(url) == Some([]) then [Update(url, counts[0])] else [];
      var next := ProcessRow(s, classify, counts, d);
      ProcessPairsCountsUnclassified(next, classify, rows[1..]);
      AddAllConcat(s.unclassified, head, UnclassifiedUpdates(classify, rows[1..]));
      assert next.unclassified == AddAll(s.unclassified, head) by {
        if Processed(counts, d) && classify(url) == Some([]) {
          assert AddAll(s.unclassified, head) == AddAll(next.unclassified, []);
        }
      }
    }
  }

  /** A disease's unclassified count is the sum of the counts of its processed rows whose
      search returned no group; rows whose search threw or found groups add nothing. */
  lemma UnclassifiedTotals(s: Statistics, classify: Classifier, matrix: seq<seq<int>>, labels: seq<Disease>, url: Iri)
    ensures Get(ProcessRows(s, classify, matrix, labels).unclassified, url) ==
            Get(s.unclassified, url) + SumFor(UnclassifiedUpdates(classify, Zip(matrix, labels)), url)
  {
    ProcessPairsCountsUnclassified(s, classify, Zip(matrix, labels));
    AddAllSums(s.unclassified, UnclassifiedUpdates(classify, Zip(matrix, labels)), url);
  }

  /** A row with a zero count still creates its disease's entry. */
  lemma ZeroCountIsRecorded(classify: Classifier)
    ensures var d := Disease("urn:miriam:orphanet:166024", "", "", "166024");
            var r := ProcessRow(NoCounts, classify, [0], d);
            DiseaseUrl("166024") in r.perDisease && r.perDisease[DiseaseUrl("166024")] == 0
  {
    assert OrphanetPrefix <= "urn:miriam:orphanet:166024";
  }

  /** Two diseases classified into the same category with counts 5 and 7 give it 12. */
  lemma SharedCategoryAddsUp(g: Iri)
    ensures var classify: Classifier := _ => Some([g]);
            var a := Disease("urn:miriam:orphanet:1", "", "", "1");
            var b := Disease("urn:miriam:orphanet:2", "", "", "2");
            Get(ProcessRows(NoCounts, classify, [[5], [7]], [a, b]).perCategory, g) == 12
  {
    var classify: Classifier := _ => Some([g]);
    var a := Disease("urn:miriam:orphanet:1", "", "", "1");
    var b := Disease("urn:miriam:orphanet:2", "", "", "2");
    assert OrphanetPrefix <= a.iri && OrphanetPrefix <= b.iri;
    assert multiset([g])[g] == 1;
    var rows: seq<(seq<int>, Disease)> := Zip([[5], [7]], [a, b]);
    assert rows == [([5], a), ([7], b)];
    var s1 := ProcessRow(NoCounts, classify, [5], a);
    var s2 := ProcessRow(s1, classify, [7], b);
    assert Get(s1.perCategory, g) == 5;
    assert Get(s2.perCategory, g) == 12;
    assert rows[0] == ([5], a) && rows[1..][0] == ([7], b) && |rows[1..][1..]| == 0;
    calc {
      ProcessPairs(NoCounts, classify, rows);
      ProcessPairs(s1, classify, rows[1..]);
      ProcessPairs(s2, classify, rows[1..][1..]);
      s2;
    }
  }

  // ---------------------------------------------------------------- closures

  /** Follows part-of and subClassOf edges, but never into the disease-group head. */
  predicate ShouldTraverse(e: Ols.Edge)
    ensures ShouldTraverse(e) <==>
      (e.uri == PartOf || e.uri == LegacyPartOf || e.uri == SubClassOf) && e.target != DiseaseGroup
  {
    e.uri in Relations && e.target != DiseaseGroup
  }

  /** An edge into one of the three group heads is a match. */
  predicate IsMatch(e: Ols.Edge)
    ensures IsMatch(e) <==> e.target == DiseaseGroup || e.target == ObsoleteGroup || e.target == DeprecatedGroup
  {
    e.target in Groups
  }

  function Rules(graph: Ols.GraphSource): Ols.Strategy {
    Ols.Strategy(graph, ShouldTraverse, IsMatch)
  }

  /** With the report's closures, every category an outgoing search returns is an IRI
      it entered with an edge into a group head; every entered IRI with an edge into a
      group head the search never entered is a result; and every group head entered
      after the start has some result with an edge into it. The categories are not all
      such IRIs: once a group head is entered, a later IRI pointing into it is not
      returned (`LaterCategoryIsNotReturned`). */
  lemma ClassifiedCategoriesPointIntoGroups(graph: Ols.GraphSource, universe: set<Iri>, start: Iri)
    requires Ols.Closed(graph, universe) && start in universe
    requires Ols.DepthFirstSearch(Rules(graph), Ols.Outgoing, universe, start).Success?
    ensures var r := Ols.DepthFirstSearch(Rules(graph), Ols.Outgoing, universe, start).value;
            var entered := Ols.Entered(Rules(graph), Ols.Outgoing, universe, start);
      forall x :: x in r ==>
        x in entered && graph(x).Success? &&
        exists e :: e in graph(x).value.edges && e.source == x && e.target in Groups
    ensures var r := Ols.DepthFirstSearch(Rules(graph), Ols.Outgoing, universe, start).value;
            var entered := Ols.Entered(Rules(graph), Ols.Outgoing, universe, start);
      forall y, e ::
        (y in entered && graph(y).Success? && e in graph(y).value.edges &&
         e.source == y && e.target in Groups && e.target !in entered) ==> y in r
    ensures var r := Ols.DepthFirstSearch(Rules(graph), Ols.Outgoing, universe, start).value;
            var entered := Ols.Entered(Rules(graph), Ols.Outgoing, universe, start);
      forall k :: 0 < k < |entered| && entered[k] in Groups ==>
        exists x :: x in r && graph(x).Success? &&
          exists e :: e in graph(x).value.edges && e.source == x && e.target == entered[k]
  {
    var s := Rules(graph);
    var r := Ols.DepthFirstSearch(s, Ols.Outgoing, universe, start).value;
    var entered := Ols.Entered(s, Ols.Outgoing, universe, start);
    forall x | x in r
      ensures x in entered && graph(x).Success? && exists e :: e in graph(x).value.edges && e.source == x && e.target in Groups
    {
      var y :| y in entered && Ols.MatchedAt(s, Ols.Outgoing, y, x);
      var e :| e in Ols.SelectEdges(graph(y).value, y, Ols.Outgoing) && IsMatch(e) && e.source == x;
    }
    forall y, e | y in entered && graph(y).Success? && e in graph(y).value.edges &&
        e.source == y && e.target in Groups && e.target !in entered
      ensures y in r
    {
      assert Ols.Settled(s, Ols.Outgoing, y, Ols.Visit(r, entered));
      assert e in Ols.SelectEdges(graph(y).value, y, Ols.Outgoing);
      assert Ols.Covered(s, e, Ols.Visit(r, entered));
    }
    forall k | 0 < k < |entered| && entered[k] in Groups
      ensures exists x :: x in r && graph(x).Success? &&
                exists e :: e in graph(x).value.edges && e.source == x && e.target == entered[k]
    {
      assert Ols.EnteredVia(s, Ols.Outgoing, Ols.Visit(r, entered), k);
      var j, e :| 0 <= j < k && graph(entered[j]).Success? &&
        e in Ols.SelectEdges(graph(entered[j]).value, entered[j], Ols.Outgoing) && ShouldTraverse(e) &&
        e.target == entered[k] && (IsMatch(e) ==> e.source in r);
      assert e.source == entered[j] && e in graph(e.source).value.edges;
    }
  }

  /** A disease with an edge of its own into a group head is classified: the outgoing
      search from it returns at least one category. */
  lemma GroupEdgeClassifies(graph: Ols.GraphSource, universe: set<Iri>, start: Iri, e: Ols.Edge)
    requires Ols.Closed(graph, universe) && start in universe
    requires Ols.DepthFirstSearch(Rules(graph), Ols.Outgoing, universe, start).Success?
    requires graph(start).Success? && e in graph(start).value.edges
    requires e.source == start && e.target in Groups && e.target != start
    ensures |Ols.DepthFirstSearch(Rules(graph), Ols.Outgoing, universe, start).value| > 0
  {
    var r := Ols.DepthFirstSearch(Rules(graph), Ols.Outgoing, universe, start).value;
    var entered := Ols.Entered(Rules(graph), Ols.Outgoing, universe, start);
    ClassifiedCategoriesPointIntoGroups(graph, universe, start);
    if e.target in entered {
      var k :| 0 <= k < |entered| && entered[k] == e.target;
      assert k != 0;
      var x :| x in r && graph(x).Success? &&
        exists e' :: e' in graph(x).value.edges && e'.source == x && e'.target == entered[k];
    } else {
      assert start in entered;
      assert start in r;
    }
  }

  /** The lookup of the order-sensitivity example: `S` is under `X` and `Y`, both under
      the obsolete-group head, all by subClassOf edges. */
  const ExampleGraph: Ols.GraphSource := iri =>
    if iri == "S" then Success(Ols.Graph([], [Ols.Edge("S", "X", "", SubClassOf), Ols.Edge("S", "Y", "", SubClassOf)]))
    else if iri == "X" then Success(Ols.Graph([], [Ols.Edge("X", ObsoleteGroup, "", SubClassOf)]))
    else if iri == "Y" then Success(Ols.Graph([], [Ols.Edge("Y", ObsoleteGroup, "", SubClassOf)]))
    else Success(Ols.Graph([], []))

  const ExampleUniverse: set<Iri> := {"S", "X", "Y", ObsoleteGroup}

  lemma ExampleClosed()
    ensures Ols.Closed(ExampleGraph, ExampleUniverse)
  {
    forall iri | iri in ExampleUniverse ensures Ols.ClosedAt(ExampleGraph, ExampleUniverse, iri) { }
  }

  /** Outgoing selection keeps a list whose every edge leaves `iri`. */
  lemma {:induction false} SelectOwnEdges(iri: Iri, edges: seq<Ols.Edge>)
    requires forall k :: 0 <= k < |edges| ==> edges[k].source == iri
    ensures Ols.SelectEdges(Ols.Graph([], edges), iri, Ols.Outgoing) == edges
    decreases |edges|
  {
    if |edges| > 0 {
      assert edges == [edges[0]] + edges[1..];
      Ols.SelectEdgesKeepsOrder([], [edges[0]], edges[1..], iri, Ols.Outgoing);
      assert [edges[0]][1..] == [];
      SelectOwnEdges(iri, edges[1..]);
    }
  }

  lemma ExampleHead()
    ensures Ols.Closed(ExampleGraph, ExampleUniverse) &&
      Ols.Search(Rules(ExampleGraph), Ols.Outgoing, ExampleUniverse, ObsoleteGroup, ["S", "X"])
        == Success(Ols.Visit([], ["S", "X", ObsoleteGroup]))
  {
    ExampleClosed();
    assert |ObsoleteGroup| > 1;
    assert ExampleGraph(ObsoleteGroup) == Success(Ols.Graph([], []));
    SelectOwnEdges(ObsoleteGroup, []);
    assert ["S", "X"] + [ObsoleteGroup] == ["S", "X", ObsoleteGroup];
  }

  lemma ExampleUnderX()
    ensures Ols.Closed(ExampleGraph, ExampleUniverse) &&
      Ols.Search(Rules(ExampleGraph), Ols.Outgoing, ExampleUniverse, "X", ["S"])
        == Success(Ols.Visit(["X"], ["S", "X", ObsoleteGroup]))
  {
    ExampleClosed();
    ExampleHead();
    var up := Ols.Edge("X", ObsoleteGroup, "", SubClassOf);
    assert |ObsoleteGroup| > 1;
    assert ExampleGraph("X") == Success(Ols.Graph([], [up]));
    SelectOwnEdges("X", [up]);
    var s := Rules(ExampleGraph);
    assert IsMatch(up) && ShouldTraverse(up);
    assert ["S"] + ["X"] == ["S", "X"];
    assert ObsoleteGroup !in ["S", "X"];
    var next := Ols.Visit(["X"], ["S", "X", ObsoleteGroup]);
    assert ([] + ["X"]) + [] == ["X"];
    assert Ols.Walk(s, Ols.Outgoing, ExampleUniverse, "X", [up], 0, Ols.Visit([], ["S", "X"]))
      == Ols.Walk(s, Ols.Outgoing, ExampleUniverse, "X", [up], 1, next);
  }

  lemma ExampleUnderY()
    ensures Ols.Closed(ExampleGraph, ExampleUniverse) &&
      Ols.Search(Rules(ExampleGraph), Ols.Outgoing, ExampleUniverse, "Y", ["S", "X", ObsoleteGroup])
        == Success(Ols.Visit([], ["S", "X", ObsoleteGroup, "Y"]))
  {
    ExampleClosed();
    var up := Ols.Edge("Y", ObsoleteGroup, "", SubClassOf);
    assert |ObsoleteGroup| > 1;
    assert ExampleGraph("Y") == Success(Ols.Graph([], [up]));
    SelectOwnEdges("Y", [up]);
    var s := Rules(ExampleGraph);
    assert ["S", "X", ObsoleteGroup] + ["Y"] == ["S", "X", ObsoleteGroup, "Y"];
    assert Ols.Walk(s, Ols.Outgoing, ExampleUniverse, "Y", [up], 0, Ols.Visit([], ["S", "X", ObsoleteGroup, "Y"]))
      == Ols.Walk(s, Ols.Outgoing, ExampleUniverse, "Y", [up], 1, Ols.Visit([], ["S", "X", ObsoleteGroup, "Y"]));
  }

  lemma ExampleFromS()
    ensures Ols.Closed(ExampleGraph, ExampleUniverse) &&
      Ols.Search(Rules(ExampleGraph), Ols.Outgoing, ExampleUniverse, "S", [])
        == Success(Ols.Visit(["X"], ["S", "X", ObsoleteGroup, "Y"]))
  {
    ExampleClosed();
    ExampleUnderX();
    ExampleUnderY();
    var toX, toY := Ols.Edge("S", "X", "", SubClassOf), Ols.Edge("S", "Y", "", SubClassOf);
    assert ExampleGraph("S") == Success(Ols.Graph([], [toX, toY]));
    SelectOwnEdges("S", [toX, toY]);
    var s := Rules(ExampleGraph);
    assert !IsMatch(toX) && ShouldTraverse(toX) && !IsMatch(toY) && ShouldTraverse(toY);
    assert [] + ["S"] == ["S"] && [] + ["X"] == ["X"] && ["X"] + [] == ["X"];
    assert "X" !in ["S"] && "Y" !in ["S", "X", ObsoleteGroup];
    var afterX := Ols.Visit(["X"], ["S", "X", ObsoleteGroup]);
    var afterY := Ols.Visit(["X"], ["S", "X", ObsoleteGroup, "Y"]);
    assert Ols.Walk(s, Ols.Outgoing, ExampleUniverse, "S", [toX, toY], 0, Ols.Visit([], ["S"]))
      == Ols.Walk(s, Ols.Outgoing, ExampleUniverse, "S", [toX, toY], 1, afterX);
    assert Ols.Walk(s, Ols.Outgoing, ExampleUniverse, "S", [toX, toY], 1, afterX)
      == Ols.Walk(s, Ols.Outgoing, ExampleUniverse, "S", [toX, toY], 2, afterY);
  }

  /** The outgoing search is order-sensitive: in the example the search enters `X`, the
      head, then `Y`, and returns `X` alone, because `Y`'s edge leads into a head already
      entered. */
  lemma LaterCategoryIsNotReturned()
    ensures && Ols.Closed(ExampleGraph, ExampleUniverse)
      && Ols.DepthFirstSearch(Rules(ExampleGraph), Ols.Outgoing, ExampleUniverse, "S") == Success(["X"])
      && Ols.Entered(Rules(ExampleGraph), Ols.Outgoing, ExampleUniverse, "S") == ["S", "X", ObsoleteGroup, "Y"]
      && Ols.Edge("Y", ObsoleteGroup, "", SubClassOf) in ExampleGraph("Y").value.edges
  {
    ExampleFromS();
    assert |ObsoleteGroup| > 1;
    assert ExampleGraph("Y") == Success(Ols.Graph([], [Ols.Edge("Y", ObsoleteGroup, "", SubClassOf)]));
  }

  // ---------------------------------------------------------------- report

  datatype ValidationError = NoData

  datatype Report = Report(rows: seq<(Iri, int)>, total: int)

  predicate NonIncreasing(rows: seq<(Iri, int)>) {
    forall i, j :: 0 <= i < j < |rows| ==> rows[i].1 >= rows[j].1
  }

  function SumCounts(rows: seq<(Iri, int)>): int {
    if |rows| == 0 then 0 else rows[0].1 + SumCounts(rows[1..])
  }

  lemma {:induction false} SumCountsConcat(a: seq<(Iri, int)>, b: seq<(Iri, int)>)
    ensures SumCounts(a + b) == SumCounts(a) + SumCounts(b)
  {
    if |a| == 0 {
      assert a + b == b;
    } else {
      assert (a + b)[1..] == a[1..] + b;
      SumCountsConcat(a[1..], b);
    }
  }

  /** Removing the row at `j` takes its count out of the total. */
  lemma RemoveAtCounts(b: seq<(Iri, int)>, j: nat)
    requires j < |b|
    ensures SumCounts(b) == SumCounts(b[..j] + b[j + 1..]) + b[j].1
  {
    var front, x, back := b[..j], b[j], b[j + 1..];
    assert SumCounts(b) == SumCounts(front + [x]) + SumCounts(back) by {
      assert b == front + [x] + back;
      SumCountsConcat(front + [x], back);
    }
    assert SumCounts(front + [x]) == SumCounts(front) + x.1 by {
      SumCountsConcat(front, [x]);
      assert [x][1..] == [];
    }
    SumCountsConcat(front, back);
  }

  /** Any listing of the same rows has the same total. */
  lemma {:induction false} SumCountsPermutation(a: seq<(Iri, int)>, b: seq<(Iri, int)>)
    requires multiset(a) == multiset(b)
    ensures SumCounts(a) == SumCounts(b)
    decreases |a|
  {
    if |a| == 0 {
      assert |b| == |multiset(b)| == 0;
    } else {
      assert a[0] in multiset(b);
      var j :| 0 <= j < |b| && b[j] == a[0];
      assert a == [a[0]] + a[1..];
      assert multiset(a[1..]) == multiset(a) - multiset{a[0]};
      RemoveAtMultiset(b, j);
      SumCountsPermutation(a[1..], b[..j] + b[j + 1..]);
      RemoveAtCounts(b, j);
    }
  }

  function Insert(x: (Iri, int), rows: seq<(Iri, int)>): (r: seq<(Iri, int)>)
    requires NonIncreasing(rows)
    ensures NonIncreasing(r)
    ensures multiset(r) == multiset(rows) + multiset{x}
  {
    if |rows| == 0 then [x]
    else if x.1 >= rows[0].1 then [x] + rows
    else
      assert rows == [rows[0]] + rows[1..];
      var tail := Insert(x, rows[1..]);
      BelowHead(x, rows, tail);
      ConsNonIncreasing(rows[0], tail);
      [rows[0]] + tail
  }

  lemma BelowHead(x: (Iri, int), rows: seq<(Iri, int)>, tail: seq<(Iri, int)>)
    requires |rows| > 0 && NonIncreasing(rows) && x.1 < rows[0].1
    requires multiset(tail) == multiset(rows[1..]) + multiset{x}
    ensures forall y :: y in tail ==> y.1 <= rows[0].1
  {
    forall y | y in tail ensures y.1 <= rows[0].1 {
      assert y in multiset(tail);
      if y != x {
        assert y in rows[1..];
        var m :| 0 <= m < |rows[1..]| && rows[1..][m] == y;
        assert rows[m + 1] == y;
      }
    }
  }

  lemma ConsNonIncreasing(h: (Iri, int), t: seq<(Iri, int)>)
    requires NonIncreasing(t) && forall y :: y in t ==> y.1 <= h.1
    ensures NonIncreasing([h] + t)
  {
    var r := [h] + t;
    forall i, j | 0 <= i < j < |r| ensures r[i].1 >= r[j].1 {
      assert r[j] == t[j - 1];
      if i > 0 {
        assert r[i] == t[i - 1];
      } else {
        assert t[j - 1] in t;
      }
    }
  }

  /** Orders rows by descending count. */
  function SortByCount(rows: seq<(Iri, int)>): (r: seq<(Iri, int)>)
    ensures NonIncreasing(r)
    ensures multiset(r) == multiset(rows)
  {
    if |rows| == 0 then []
    else
      assert rows == [rows[0]] + rows[1..];
      Insert(rows[0], SortByCount(rows[1..]))
  }

  /** The rows list every entry of `data` exactly once. */
  predicate ListsExactly(rows: seq<(Iri, int)>, data: map<Iri, int>) {
    && |rows| == |data|
    && (forall i :: 0 <= i < |rows| ==> rows[i].0 in data && data[rows[i].0] == rows[i].1)
    && (forall i, j :: 0 <= i < j < |rows| ==> rows[i].0 != rows[j].0)
    && (forall k :: k in data ==> exists i :: 0 <= i < |rows| && rows[i].0 == k)
  }

  /** The entries of `data` in some order. */
  method Entries(data: map<Iri, int>) returns (rows: seq<(Iri, int)>)
    ensures ListsExactly(rows, data)
  {
    rows := [];
    var rest := data.Keys;
    while rest != {}
      invariant rest <= data.Keys
      invariant |rows| + |rest| == |data|
      invariant forall i :: 0 <= i < |rows| ==> rows[i].0 in data && data[rows[i].0] == rows[i].1 && rows[i].0 !in rest
      invariant forall i, j :: 0 <= i < j < |rows| ==> rows[i].0 != rows[j].0
      invariant forall k :: k in data ==> k in rest || exists i :: 0 <= i < |rows| && rows[i].0 == k
      decreases |rest|
    {
      var k :| k in rest;
      ghost var before := rows;
      rows := rows + [(k, data[k])];
      forall k' | k' in data && k' !in rest - {k} ensures exists i :: 0 <= i < |rows| && rows[i].0 == k' {
        if k' == k {
          assert rows[|rows| - 1].0 == k;
        } else {
          var i :| 0 <= i < |before| && before[i].0 == k';
          assert rows[i].0 == k';
        }
      }
      rest := rest - {k};
    }
  }

  lemma {:induction false} NoDupCount(s: seq<(Iri, int)>)
    requires NoDup(s)
    ensures forall x :: multiset(s)[x] == if x in s then 1 else 0
  {
    if |s| > 0 {
      NoDupCount(s[1..]);
      assert s == [s[0]] + s[1..];
      assert s[0] !in s[1..] by {
        forall m | 0 <= m < |s[1..]| ensures s[1..][m] != s[0] {
          assert s[1..][m] == s[m + 1];
        }
      }
    }
  }

  lemma RepeatCount(s: seq<(Iri, int)>, i: nat, j: nat)
    requires i < j < |s| && s[i] == s[j]
    ensures multiset(s)[s[i]] >= 2
  {
    assert s == s[..j] + [s[j]] + s[j + 1..];
    assert s[i] in s[..j];
  }

  lemma ListingHasNoDup(rows: seq<(Iri, int)>, data: map<Iri, int>)
    requires ListsExactly(rows, data)
    ensures NoDup(rows)
  {
  }

  /** Two listings of the same map hold the same rows. */
  lemma ListingsAgree(a: seq<(Iri, int)>, b: seq<(Iri, int)>, data: map<Iri, int>)
    requires ListsExactly(a, data) && ListsExactly(b, data)
    ensures multiset(a) == multiset(b)
  {
    ListingHasNoDup(a, data);
    ListingHasNoDup(b, data);
    NoDupCount(a);
    NoDupCount(b);
    forall x ensures x in a <==> x in b {
      if x in a {
        var i :| 0 <= i < |a| && a[i] == x;
        var j :| 0 <= j < |b| && b[j].0 == x.0;
      }
      if x in b {
        var j :| 0 <= j < |b| && b[j] == x;
        var i :| 0 <= i < |a| && a[i].0 == x.0;
      }
    }
    assert forall x :: multiset(a)[x] == multiset(b)[x];
  }

  /** Reordering a listing keeps it a listing. */
  lemma ListingsArePermutations(a: seq<(Iri, int)>, b: seq<(Iri, int)>, data: map<Iri, int>)
    requires ListsExactly(a, data) && multiset(a) == multiset(b)
    ensures ListsExactly(b, data)
  {
    forall i | 0 <= i < |b| ensures b[i].0 in data && data[b[i].0] == b[i].1 {
      assert b[i] in multiset(a);
    }
    forall k | k in data ensures exists i :: 0 <= i < |b| && b[i].0 == k {
      var i :| 0 <= i < |a| && a[i].0 == k;
      assert a[i] in multiset(b);
    }
    assert |b| == |multiset(b)| == |multiset(a)| == |a|;
    ListingHasNoDup(a, data);
    NoDupCount(a);
    forall i, j | 0 <= i < j < |b| ensures b[i].0 != b[j].0 {
      if b[i].0 == b[j].0 {
        RepeatCount(b, i, j);
      }
    }
  }

  /** The category table: an empty counter is rejected; otherwise every category is
      listed once in non-increasing count order, and the total is the sum of all
      counts. */
  method PrintStatistics(data: map<Iri, int>) returns (r: Result<Report, ValidationError>)
    ensures r.Failure? <==> |data| == 0
    ensures r.Success? ==> NonIncreasing(r.value.rows) && ListsExactly(r.value.rows, data)
    ensures r.Success? ==> forall listing :: ListsExactly(listing, data) ==> r.value.total == SumCounts(listing)
  {
    if |data| == 0 {
      return Failure(NoData);
    }
    var rows := Entries(data);
    var sorted := SortByCount(rows);
    ListingsArePermutations(rows, sorted, data);
    forall listing | ListsExactly(listing, data) ensures SumCounts(sorted) == SumCounts(listing) {
      ListingsAgree(sorted, listing, data);
      SumCountsPermutation(sorted, listing);
    }
    r := Success(Report(sorted, SumCounts(sorted)));
  }
}

=== FILE: iris.dfy ===
/** Resource identifiers as every part of the model sees them: plain strings, compared
    character by character. */
module Iris {

  type Iri = string
}

=== FILE: ols.dfy ===
/** The Ontology Lookup Service client: the graph of an IRI's neighbours and the
    depth-first search that the report uses to find a disease's categories. */
module Ols {
  import opened Wrappers
  import opened Seqs
  import opened Iris

  datatype Direction = Incoming | Outgoing | Both

  datatype Node = Node(iri: Iri, name: string)

  datatype Edge = Edge(source: Iri, target: Iri, name: string, uri: Iri)

  datatype Graph = Graph(nodes: seq<Node>, edges: seq<Edge>)

  /** Download or decoding of a graph failed. */
  datatype OlsError = DownloadFailed

  /** The `graph(for:)` lookup, supplied as a function of the IRI. */
  type GraphSource = Iri -> Result<Graph, OlsError>

  /** The closures and lookup a search runs with. */
  datatype Strategy = Strategy(graph: GraphSource, shouldTraverse: Edge -> bool, isMatch: Edge -> bool)

  /** The search's state: the sources found so far and the IRIs entered so far. */
  datatype Visit = Visit(found: seq<Iri>, seen: seq<Iri>)

  predicate Selected(e: Edge, iri: Iri, dir: Direction) {
    match dir
    case Incoming => e.target == iri
    case Outgoing => e.source == iri
    case Both => true
  }

  /** The edges of `g` that run in direction `dir` from `iri`, in the graph's order. */
  function SelectEdges(g: Graph, iri: Iri, dir: Direction): (r: seq<Edge>)
    ensures forall e :: e in r <==> e in g.edges && Selected(e, iri, dir)
    ensures dir == Both ==> r == g.edges
  {
    match dir
    case Incoming => Filter(g.edges, (e: Edge) => e.target == iri)
    case Outgoing => Filter(g.edges, (e: Edge) => e.source == iri)
    case Both => g.edges
  }

  /** Selection keeps the graph's order: it distributes over splitting the edge list. */
  lemma SelectEdgesKeepsOrder(nodes: seq<Node>, a: seq<Edge>, b: seq<Edge>, iri: Iri, dir: Direction)
    ensures SelectEdges(Graph(nodes, a + b), iri, dir) == SelectEdges(Graph(nodes, a), iri, dir) + SelectEdges(Graph(nodes, b), iri, dir)
  {
    match dir
    case Incoming => FilterConcat(a, b, (e: Edge) => e.target == iri);
    case Outgoing => FilterConcat(a, b, (e: Edge) => e.source == iri);
    case Both =>
  }

  function Elements<T>(s: seq<T>): set<T> {
    set x | x in s
  }

  /** If the graph of `iri` can be fetched, its edges point only into `universe`. */
  ghost predicate ClosedAt(graph: GraphSource, universe: set<Iri>, iri: Iri) {
    graph(iri).Success? ==> forall e :: e in graph(iri).value.edges ==> e.target in universe
  }

  /** Every IRI of `universe` whose graph can be fetched points only into `universe`. */
  ghost predicate Closed(graph: GraphSource, universe: set<Iri>) {
    forall iri {:trigger ClosedAt(graph, universe, iri)} :: iri in universe ==> ClosedAt(graph, universe, iri)
  }

  /** `x` is the source of a matching edge selected at the entered IRI `y`. */
  ghost predicate MatchedAt(s: Strategy, dir: Direction, y: Iri, x: Iri) {
    s.graph(y).Success? &&
    exists e :: e in SelectEdges(s.graph(y).value, y, dir) && s.isMatch(e) && e.source == x
  }

  ghost predicate Explained(s: Strategy, dir: Direction, visited: seq<Iri>, x: Iri) {
    exists y :: y in visited && MatchedAt(s, dir, y, x)
  }

  lemma ExplainedGrows(s: Strategy, dir: Direction, a: seq<Iri>, b: seq<Iri>, xs: seq<Iri>)
    requires a <= b
    requires forall x :: x in xs ==> Explained(s, dir, a, x)
    ensures forall x :: x in xs ==> Explained(s, dir, b, x)
  {
    forall x | x in xs ensures Explained(s, dir, b, x) {
      var y :| y in a && MatchedAt(s, dir, y, x);
      var k :| 0 <= k < |a| && a[k] == y;
      assert b[k] == y;
    }
  }

  lemma EnterShrinks(universe: set<Iri>, seen: seq<Iri>, iri: Iri)
    requires iri in universe && iri !in seen
    ensures |universe - Elements(seen + [iri])| < |universe - Elements(seen)|
  {
    assert universe - Elements(seen + [iri]) == (universe - Elements(seen)) - {iri};
  }

  lemma GrowthNeverWidens(universe: set<Iri>, a: seq<Iri>, b: seq<Iri>)
    requires a <= b
    ensures |universe - Elements(b)| <= |universe - Elements(a)|
  {
    PrefixMembers(a, b);
    var wide, narrow := universe - Elements(a), universe - Elements(b);
    assert wide == narrow + (wide - narrow);
    assert narrow * (wide - narrow) == {};
  }

  lemma PrefixMembers<T>(a: seq<T>, b: seq<T>)
    requires a <= b
    ensures forall x :: x in a ==> x in b
  {
    forall x | x in a ensures x in b {
      var k :| 0 <= k < |a| && a[k] == x;
      assert b[k] == x;
    }
  }

  lemma FoundExplained(s: Strategy, dir: Direction, owner: Iri, e: Edge, acc: Visit)
    requires owner in acc.seen && s.graph(owner).Success?
    requires e in SelectEdges(s.graph(owner).value, owner, dir)
    requires forall x :: x in acc.found ==> Explained(s, dir, acc.seen, x)
    ensures forall x :: x in (if s.isMatch(e) then acc.found + [e.source] else acc.found) ==> Explained(s, dir, acc.seen, x)
  {
    if s.isMatch(e) {
      assert MatchedAt(s, dir, owner, e.source);
    }
  }

  /** The edge was dealt with as the search promises: a traversable edge's target has
      been entered, and a matching edge whose target was never entered has had its source
      recorded. */
  ghost predicate Covered(s: Strategy, e: Edge, v: Visit) {
    && (s.shouldTraverse(e) ==> e.target in v.seen)
    && (s.isMatch(e) && e.target !in v.seen ==> e.source in v.found)
  }

  /** Every edge selected at the entered IRI `y` is covered by `v`. */
  ghost predicate Settled(s: Strategy, dir: Direction, y: Iri, v: Visit) {
    s.graph(y).Success? &&
    forall e :: e in SelectEdges(s.graph(y).value, y, dir) ==> Covered(s, e, v)
  }

  lemma SettledGrows(s: Strategy, dir: Direction, y: Iri, a: Visit, b: Visit)
    requires Settled(s, dir, y, a)
    requires forall x :: x in a.seen ==> x in b.seen
    requires forall x :: x in a.found ==> x in b.found
    ensures Settled(s, dir, y, b)
  {
    forall e | e in SelectEdges(s.graph(y).value, y, dir) ensures Covered(s, e, b) {
      assert Covered(s, e, a);
    }
  }

  /** Settledness of the entries `from..` of `a.seen` carries over to a larger visit. */
  lemma AllSettledGrow(s: Strategy, dir: Direction, from: nat, a: Visit, b: Visit)
    requires a.seen <= b.seen && a.found <= b.found
    requires forall k {:trigger Settled(s, dir, a.seen[k], a)} :: from <= k < |a.seen| ==> Settled(s, dir, a.seen[k], a)
    ensures forall k {:trigger Settled(s, dir, b.seen[k], b)} :: from <= k < |a.seen| ==> Settled(s, dir, b.seen[k], b)
  {
    PrefixMembers(a.seen, b.seen);
    PrefixMembers(a.found, b.found);
    forall k | from <= k < |a.seen| ensures Settled(s, dir, b.seen[k], b) {
      SettledGrows(s, dir, a.seen[k], a, b);
    }
  }

  /** Enters `iri`: records it in `seen`, then examines its edges in order. */
  function Search(s: Strategy, dir: Direction, universe: set<Iri>, iri: Iri, seen: seq<Iri>): (r: Result<Visit, OlsError>)
    requires Closed(s.graph, universe) && iri in universe && iri !in seen
    ensures s.graph(iri).Failure? ==> r == Failure(s.graph(iri).error)
    ensures r.Success? ==> seen + [iri] <= r.value.seen
    ensures dir == Incoming && r.Success? ==> r.value == Visit([], seen + [iri])
    decreases |universe - Elements(seen)|, 0
  {
    match s.graph(iri)
    case Failure(e) => Failure(e)
    case Success(g) =>
      var edges := SelectEdges(g, iri, dir);
      EnterShrinks(universe, seen, iri);
      assert dir == Incoming ==> forall k :: 0 <= k < |edges| ==> edges[k].target in seen + [iri] by {
        if dir == Incoming {
          forall k | 0 <= k < |edges| ensures edges[k].target in seen + [iri] {
            assert edges[k] in edges;
          }
        }
      }
      Walk(s, dir, universe, iri, edges, 0, Visit([], seen + [iri]))
  }

  /** Examines `edges[i..]`, the edges selected at `owner`, threading the visit state:
      an edge into an entered IRI is skipped; otherwise a matching edge's source is
      found, and a traversable edge's target is searched next. */
  function Walk(s: Strategy, dir: Direction, universe: set<Iri>, ghost owner: Iri, edges: seq<Edge>, i: nat, acc: Visit): (r: Result<Visit, OlsError>)
    requires Closed(s.graph, universe) && i <= |edges|
    requires owner in universe && s.graph(owner).Success?
    requires edges == SelectEdges(s.graph(owner).value, owner, dir)
    ensures r.Success? ==> acc.seen <= r.value.seen && acc.found <= r.value.found
    ensures (forall k :: i <= k < |edges| ==> edges[k].target in acc.seen) ==> r == Success(acc)
    decreases |universe - Elements(acc.seen)|, 1, |edges| - i
  {
    if i == |edges| then Success(acc)
    else
      var e := edges[i];
      if e.target in acc.seen then Walk(s, dir, universe, owner, edges, i + 1, acc)
      else
        assert e in s.graph(owner).value.edges;
        assert ClosedAt(s.graph, universe, owner);
        var found := if s.isMatch(e) then acc.found + [e.source] else acc.found;
        if s.shouldTraverse(e) then
          match Search(s, dir, universe, e.target, acc.seen)
          case Failure(err) => Failure(err)
          case Success(v) =>
            GrowthNeverWidens(universe, acc.seen, v.seen);
            Walk(s, dir, universe, owner, edges, i + 1, Visit(found + v.found, v.seen))
        else
          Walk(s, dir, universe, owner, edges, i + 1, Visit(found, acc.seen))
  }

  /** The state after examining `edges[i]` when its target has not been entered, and the
      search of that target (if any) succeeded with `v`. */
  function After(s: Strategy, e: Edge, acc: Visit, v: Visit): Visit {
    var found := if s.isMatch(e) then acc.found + [e.source] else acc.found;
    if s.shouldTraverse(e) then Visit(found + v.found, v.seen) else Visit(found, acc.seen)
  }

  /** One step of the walk: an edge into an entered IRI is skipped; otherwise a matching
      edge's source is the next found entry and a traversable edge's target is entered. */
  lemma WalkExamines(s: Strategy, dir: Direction, universe: set<Iri>, owner: Iri, edges: seq<Edge>, i: nat, acc: Visit)
    requires Closed(s.graph, universe) && i < |edges|
    requires owner in universe && s.graph(owner).Success?
    requires edges == SelectEdges(s.graph(owner).value, owner, dir)
    ensures var r := Walk(s, dir, universe, owner, edges, i, acc);
      && (edges[i].target in acc.seen ==> r == Walk(s, dir, universe, owner, edges, i + 1, acc))
      && (r.Success? && edges[i].target !in acc.seen && s.isMatch(edges[i]) ==>
            |r.value.found| > |acc.found| && r.value.found[|acc.found|] == edges[i].source)
      && (r.Success? && edges[i].target !in acc.seen && s.shouldTraverse(edges[i]) ==>
            edges[i].target in r.value.seen)
  {
    var e := edges[i];
    var r := Walk(s, dir, universe, owner, edges, i, acc);
    if r.Success? && e.target !in acc.seen {
      assert e in s.graph(owner).value.edges;
      assert ClosedAt(s.graph, universe, owner);
      var found := if s.isMatch(e) then acc.found + [e.source] else acc.found;
      if s.shouldTraverse(e) {
        var v := Search(s, dir, universe, e.target, acc.seen).value;
        GrowthNeverWidens(universe, acc.seen, v.seen);
        var next := Visit(found + v.found, v.seen);
        assert r == Walk(s, dir, universe, owner, edges, i + 1, next);
        assert (acc.seen + [e.target])[|acc.seen|] == e.target;
        PrefixMembers(v.seen, r.value.seen);
        if s.isMatch(e) {
          assert next.found[|acc.found|] == e.source;
        }
      } else if s.isMatch(e) {
        var next := Visit(found, acc.seen);
        assert r == Walk(s, dir, universe, owner, edges, i + 1, next);
        assert next.found[|acc.found|] == e.source;
      }
    }
  }

  // ------------------------------------------------------------ entered IRIs

  /** A search enters only IRIs of the universe. */
  lemma {:induction false} SearchEnters(s: Strategy, dir: Direction, universe: set<Iri>, iri: Iri, seen: seq<Iri>)
    requires Closed(s.graph, universe) && iri in universe && iri !in seen
    requires Search(s, dir, universe, iri, seen).Success?
    ensures forall x :: x in Search(s, dir, universe, iri, seen).value.seen ==> x in seen || x in universe
    decreases |universe - Elements(seen)|, 0
  {
    var edges := SelectEdges(s.graph(iri).value, iri, dir);
    EnterShrinks(universe, seen, iri);
    WalkEnters(s, dir, universe, iri, edges, 0, Visit([], seen + [iri]));
  }

  lemma {:induction false} WalkEnters(s: Strategy, dir: Direction, universe: set<Iri>, owner: Iri, edges: seq<Edge>, i: nat, acc: Visit)
    requires Closed(s.graph, universe) && i <= |edges|
    requires owner in universe && s.graph(owner).Success?
    requires edges == SelectEdges(s.graph(owner).value, owner, dir)
    requires Walk(s, dir, universe, owner, edges, i, acc).Success?
    ensures forall x :: x in Walk(s, dir, universe, owner, edges, i, acc).value.seen ==> x in acc.seen || x in universe
    decreases |universe - Elements(acc.seen)|, 1, |edges| - i
  {
    if i < |edges| {
      var e := edges[i];
      if e.target in acc.seen {
        WalkEnters(s, dir, universe, owner, edges, i + 1, acc);
      } else {
        assert e in s.graph(owner).value.edges;
        assert ClosedAt(s.graph, universe, owner);
        if s.shouldTraverse(e) {
          var v := Search(s, dir, universe, e.target, acc.seen).value;
          SearchEnters(s, dir, universe, e.target, acc.seen);
          GrowthNeverWidens(universe, acc.seen, v.seen);
          var next := After(s, e, acc, v);
          assert next.seen == v.seen;
          assert Walk(s, dir, universe, owner, edges, i, acc) == Walk(s, dir, universe, owner, edges, i + 1, next);
          WalkEnters(s, dir, universe, owner, edges, i + 1, next);
        } else {
          var next := After(s, e, acc, acc);
          assert next.seen == acc.seen;
          assert Walk(s, dir, universe, owner, edges, i, acc) == Walk(s, dir, universe, owner, edges, i + 1, next);
          WalkEnters(s, dir, universe, owner, edges, i + 1, next);
        }
      }
    }
  }

  /** A search never enters an IRI twice. */
  lemma {:induction false} SearchNoRepeat(s: Strategy, dir: Direction, universe: set<Iri>, iri: Iri, seen: seq<Iri>)
    requires Closed(s.graph, universe) && iri in universe && iri !in seen
    requires Search(s, dir, universe, iri, seen).Success?
    requires NoDup(seen)
    ensures NoDup(Search(s, dir, universe, iri, seen).value.seen)
    decreases |universe - Elements(seen)|, 0
  {
    var edges := SelectEdges(s.graph(iri).value, iri, dir);
    EnterShrinks(universe, seen, iri);
    WalkNoRepeat(s, dir, universe, iri, edges, 0, Visit([], seen + [iri]));
  }

  lemma {:induction false} WalkNoRepeat(s: Strategy, dir: Direction, universe: set<Iri>, owner: Iri, edges: seq<Edge>, i: nat, acc: Visit)
    requires Closed(s.graph, universe) && i <= |edges|
    requires owner in universe && s.graph(owner).Success?
    requires edges == SelectEdges(s.graph(owner).value, owner, dir)
    requires Walk(s, dir, universe, owner, edges, i, acc).Success?
    requires NoDup(acc.seen)
    ensures NoDup(Walk(s, dir, universe, owner, edges, i, acc).value.seen)
    decreases |universe - Elements(acc.seen)|, 1, |edges| - i
  {
    if i < |edges| {
      var e := edges[i];
      if e.target in acc.seen {
        WalkNoRepeat(s, dir, universe, owner, edges, i + 1, acc);
      } else {
        assert e in s.graph(owner).value.edges;
        assert ClosedAt(s.graph, universe, owner);
        if s.shouldTraverse(e) {
          var v := Search(s, dir, universe, e.target, acc.seen).value;
          SearchNoRepeat(s, dir, universe, e.target, acc.seen);
          GrowthNeverWidens(universe, acc.seen, v.seen);
          var next := After(s, e, acc, v);
          assert next.seen == v.seen;
          assert Walk(s, dir, universe, owner, edges, i, acc) == Walk(s, dir, universe, owner, edges, i + 1, next);
          WalkNoRepeat(s, dir, universe, owner, edges, i + 1, next);
        } else {
          var next := After(s, e, acc, acc);
          assert next.seen == acc.seen;
          assert Walk(s, dir, universe, owner, edges, i, acc) == Walk(s, dir, universe, owner, edges, i + 1, next);
          WalkNoRepeat(s, dir, universe, owner, edges, i + 1, next);
        }
      }
    }
  }

  // ------------------------------------------------------------ soundness

  /** Every source a search finds belongs to a matching edge selected at an IRI it
      entered. */
  lemma {:induction false} SearchExplains(s: Strategy, dir: Direction, universe: set<Iri>, iri: Iri, seen: seq<Iri>)
    requires Closed(s.graph, universe) && iri in universe && iri !in seen
    requires Search(s, dir, universe, iri, seen).Success?
    ensures var r := Search(s, dir, universe, iri, seen).value;
      forall x :: x in r.found ==> Explained(s, dir, r.seen, x)
    decreases |universe - Elements(seen)|, 0
  {
    var edges := SelectEdges(s.graph(iri).value, iri, dir);
    EnterShrinks(universe, seen, iri);
    WalkExplains(s, dir, universe, iri, edges, 0, Visit([], seen + [iri]));
  }

  lemma {:induction false} WalkExplains(s: Strategy, dir: Direction, universe: set<Iri>, owner: Iri, edges: seq<Edge>, i: nat, acc: Visit)
    requires Closed(s.graph, universe) && i <= |edges|
    requires owner in universe && owner in acc.seen && s.graph(owner).Success?
    requires edges == SelectEdges(s.graph(owner).value, owner, dir)
    requires forall x :: x in acc.found ==> Explained(s, dir, acc.seen, x)
    requires Walk(s, dir, universe, owner, edges, i, acc).Success?
    ensures var r := Walk(s, dir, universe, owner, edges, i, acc).value;
      forall x :: x in r.found ==> Explained(s, dir, r.seen, x)
    decreases |universe - Elements(acc.seen)|, 1, |edges| - i
  {
    if i < |edges| {
      var e := edges[i];
      if e.target in acc.seen {
        WalkExplains(s, dir, universe, owner, edges, i + 1, acc);
      } else {
        assert e in s.graph(owner).value.edges;
        assert ClosedAt(s.graph, universe, owner);
        var found := if s.isMatch(e) then acc.found + [e.source] else acc.found;
        FoundExplained(s, dir, owner, e, acc);
        if s.shouldTraverse(e) {
          var v := Search(s, dir, universe, e.target, acc.seen).value;
          SearchExplains(s, dir, universe, e.target, acc.seen);
          ExplainedGrows(s, dir, acc.seen, v.seen, found);
          PrefixMembers(acc.seen, v.seen);
          GrowthNeverWidens(universe, acc.seen, v.seen);
          var next := After(s, e, acc, v);
          assert Walk(s, dir, universe, owner, edges, i, acc) == Walk(s, dir, universe, owner, edges, i + 1, next);
          WalkExplains(s, dir, universe, owner, edges, i + 1, next);
        } else {
          var next := After(s, e, acc, acc);
          assert Walk(s, dir, universe, owner, edges, i, acc) == Walk(s, dir, universe, owner, edges, i + 1, next);
          WalkExplains(s, dir, universe, owner, edges, i + 1, next);
        }
      }
    }
  }

  // ------------------------------------------------------------ completeness

  /** Every IRI a successful search enters is settled once it returns. */
  lemma {:induction false} SearchSettles(s: Strategy, dir: Direction, universe: set<Iri>, iri: Iri, seen: seq<Iri>)
    requires Closed(s.graph, universe) && iri in universe && iri !in seen
    requires Search(s, dir, universe, iri, seen).Success?
    ensures var r := Search(s, dir, universe, iri, seen).value;
      forall k {:trigger Settled(s, dir, r.seen[k], r)} :: |seen| <= k < |r.seen| ==> Settled(s, dir, r.seen[k], r)
    decreases |universe - Elements(seen)|, 0, 0, 0
  {
    var r := Search(s, dir, universe, iri, seen).value;
    var edges := SelectEdges(s.graph(iri).value, iri, dir);
    EnterShrinks(universe, seen, iri);
    WalkSettles(s, dir, universe, iri, edges, 0, Visit([], seen + [iri]));
    assert r.seen[|seen|] == iri by {
      assert (seen + [iri])[|seen|] == iri;
    }
    forall e | e in edges ensures Covered(s, e, r) {
      var k :| 0 <= k < |edges| && edges[k] == e;
    }
    assert Settled(s, dir, r.seen[|seen|], r);
  }

  /** The conclusion of `WalkSettles` for the walk from `i` with state `acc`. */
  ghost predicate WalkSettled(s: Strategy, dir: Direction, edges: seq<Edge>, i: nat, acc: Visit, r: Visit) {
    && (forall k {:trigger Settled(s, dir, r.seen[k], r)} :: |acc.seen| <= k < |r.seen| ==> Settled(s, dir, r.seen[k], r))
    && (forall k :: i <= k < |edges| ==> Covered(s, edges[k], r))
  }

  /** A successful walk covers every edge it examines and leaves every IRI it entered
      settled. */
  lemma {:induction false} WalkSettles(s: Strategy, dir: Direction, universe: set<Iri>, owner: Iri, edges: seq<Edge>, i: nat, acc: Visit)
    requires Closed(s.graph, universe) && i <= |edges|
    requires owner in universe && s.graph(owner).Success?
    requires edges == SelectEdges(s.graph(owner).value, owner, dir)
    requires Walk(s, dir, universe, owner, edges, i, acc).Success?
    ensures WalkSettled(s, dir, edges, i, acc, Walk(s, dir, universe, owner, edges, i, acc).value)
    decreases |universe - Elements(acc.seen)|, 1, |edges| - i, 1
  {
    if i < |edges| {
      if edges[i].target in acc.seen {
        WalkSettlesSkip(s, dir, universe, owner, edges, i, acc);
      } else if s.shouldTraverse(edges[i]) {
        WalkSettlesTraverse(s, dir, universe, owner, edges, i, acc);
      } else {
        WalkSettlesPlain(s, dir, universe, owner, edges, i, acc);
      }
    }
  }

  lemma {:induction false} WalkSettlesSkip(s: Strategy, dir: Direction, universe: set<Iri>, owner: Iri, edges: seq<Edge>, i: nat, acc: Visit)
    requires Closed(s.graph, universe) && i < |edges|
    requires owner in universe && s.graph(owner).Success?
    requires edges == SelectEdges(s.graph(owner).value, owner, dir)
    requires edges[i].target in acc.seen
    requires Walk(s, dir, universe, owner, edges, i, acc).Success?
    ensures WalkSettled(s, dir, edges, i, acc, Walk(s, dir, universe, owner, edges, i, acc).value)
    decreases |universe - Elements(acc.seen)|, 1, |edges| - i, 0
  {
    var r := Walk(s, dir, universe, owner, edges, i + 1, acc).value;
    assert Walk(s, dir, universe, owner, edges, i, acc).value == r;
    WalkSettles(s, dir, universe, owner, edges, i + 1, acc);
    assert Covered(s, edges[i], r) by {
      PrefixMembers(acc.seen, r.seen);
    }
    SettledExtends(s, dir, edges, i, acc, acc, r);
    assert WalkSettled(s, dir, edges, i, acc, Walk(s, dir, universe, owner, edges, i, acc).value);
  }

  lemma {:induction false} WalkSettlesPlain(s: Strategy, dir: Direction, universe: set<Iri>, owner: Iri, edges: seq<Edge>, i: nat, acc: Visit)
    requires Closed(s.graph, universe) && i < |edges|
    requires owner in universe && s.graph(owner).Success?
    requires edges == SelectEdges(s.graph(owner).value, owner, dir)
    requires edges[i].target !in acc.seen && !s.shouldTraverse(edges[i])
    requires Walk(s, dir, universe, owner, edges, i, acc).Success?
    ensures WalkSettled(s, dir, edges, i, acc, Walk(s, dir, universe, owner, edges, i, acc).value)
    decreases |universe - Elements(acc.seen)|, 1, |edges| - i, 0
  {
    var e := edges[i];
    var next := After(s, e, acc, acc);
    var r := Walk(s, dir, universe, owner, edges, i + 1, next).value;
    assert Walk(s, dir, universe, owner, edges, i, acc).value == r;
    WalkSettles(s, dir, universe, owner, edges, i + 1, next);
    assert Covered(s, e, r) by {
      if s.isMatch(e) {
        assert next.found <= r.found;
        assert r.found[|acc.found|] == next.found[|acc.found|] == e.source;
      }
    }
    SettledExtends(s, dir, edges, i, acc, next, r);
    assert WalkSettled(s, dir, edges, i, acc, Walk(s, dir, universe, owner, edges, i, acc).value);
  }

  lemma SettledExtends(s: Strategy, dir: Direction, edges: seq<Edge>, i: nat, acc: Visit, next: Visit, r: Visit)
    requires i < |edges| && |next.seen| == |acc.seen|
    requires WalkSettled(s, dir, edges, i + 1, next, r) && Covered(s, edges[i], r)
    ensures WalkSettled(s, dir, edges, i, acc, r)
  {
  }

  lemma {:induction false} WalkSettlesTraverse(s: Strategy, dir: Direction, universe: set<Iri>, owner: Iri, edges: seq<Edge>, i: nat, acc: Visit)
    requires Closed(s.graph, universe) && i < |edges|
    requires owner in universe && s.graph(owner).Success?
    requires edges == SelectEdges(s.graph(owner).value, owner, dir)
    requires edges[i].target !in acc.seen && s.shouldTraverse(edges[i])
    requires Walk(s, dir, universe, owner, edges, i, acc).Success?
    ensures WalkSettled(s, dir, edges, i, acc, Walk(s, dir, universe, owner, edges, i, acc).value)
    decreases |universe - Elements(acc.seen)|, 1, |edges| - i, 0
  {
    var e := edges[i];
    assert e in s.graph(owner).value.edges;
    assert ClosedAt(s.graph, universe, owner);
    var v := Search(s, dir, universe, e.target, acc.seen).value;
    SearchSettles(s, dir, universe, e.target, acc.seen);
    GrowthNeverWidens(universe, acc.seen, v.seen);
    var next := After(s, e, acc, v);
    var r := Walk(s, dir, universe, owner, edges, i + 1, next).value;
    assert Walk(s, dir, universe, owner, edges, i, acc).value == r;
    WalkSettles(s, dir, universe, owner, edges, i + 1, next);
    WalkStep(s, dir, edges, i, acc, v, next, r);
    assert WalkSettled(s, dir, edges, i, acc, Walk(s, dir, universe, owner, edges, i, acc).value);
  }

  /** After a traversal step, the IRIs the nested search entered stay settled once the
      walk finishes, and the traversed edge is covered. */
  lemma WalkStep(s: Strategy, dir: Direction, edges: seq<Edge>, i: nat, acc: Visit, v: Visit, next: Visit, r: Visit)
    requires i < |edges| && s.shouldTraverse(edges[i]) && edges[i].target !in acc.seen
    requires acc.seen + [edges[i].target] <= v.seen
    requires forall k {:trigger Settled(s, dir, v.seen[k], v)} :: |acc.seen| <= k < |v.seen| ==> Settled(s, dir, v.seen[k], v)
    requires next == After(s, edges[i], acc, v)
    requires next.seen <= r.seen && next.found <= r.found
    requires WalkSettled(s, dir, edges, i + 1, next, r)
    ensures WalkSettled(s, dir, edges, i, acc, r)
  {
    forall x | x in v.found ensures x in next.found {
      var k :| 0 <= k < |v.found| && v.found[k] == x;
      assert next.found[|next.found| - |v.found| + k] == x;
    }
    forall k | |acc.seen| <= k < |v.seen| ensures Settled(s, dir, next.seen[k], next) {
      SettledGrows(s, dir, v.seen[k], v, next);
    }
    AllSettledGrow(s, dir, |acc.seen|, next, r);
    PrefixMembers(next.seen, r.seen);
    assert edges[i].target in v.seen by {
      assert (acc.seen + [edges[i].target])[|acc.seen|] == edges[i].target;
      assert v.seen[|acc.seen|] == edges[i].target;
    }
    assert Covered(s, edges[i], r);
  }

  // ------------------------------------------------------------ how IRIs are entered

  /** `v.seen[k]` was entered through a traversable edge selected at an IRI entered before
      it, and that edge's source was recorded if the edge matches. */
  ghost predicate EnteredVia(s: Strategy, dir: Direction, v: Visit, k: nat)
    requires k < |v.seen|
  {
    exists j, e :: 0 <= j < k && s.graph(v.seen[j]).Success? &&
      e in SelectEdges(s.graph(v.seen[j]).value, v.seen[j], dir) && s.shouldTraverse(e) &&
      e.target == v.seen[k] && (s.isMatch(e) ==> e.source in v.found)
  }

  /** An entry witness survives a later state that extends `seen` and keeps the results. */
  lemma EnteredViaGrows(s: Strategy, dir: Direction, a: Visit, b: Visit, k: nat)
    requires k < |a.seen| && a.seen <= b.seen
    requires forall x :: x in a.found ==> x in b.found
    requires EnteredVia(s, dir, a, k)
    ensures EnteredVia(s, dir, b, k)
  {
    var j, e :| 0 <= j < k && s.graph(a.seen[j]).Success? &&
      e in SelectEdges(s.graph(a.seen[j]).value, a.seen[j], dir) && s.shouldTraverse(e) &&
      e.target == a.seen[k] && (s.isMatch(e) ==> e.source in a.found);
    assert b.seen[j] == a.seen[j] && b.seen[k] == a.seen[k];
  }

  /** The IRI a traversed edge enters is witnessed by that edge from its owner. */
  lemma EnteredByEdge(s: Strategy, dir: Direction, owner: Iri, jo: nat, e: Edge, acc: Visit, v: Visit, r: Visit)
    requires jo < |acc.seen| && acc.seen[jo] == owner && s.graph(owner).Success?
    requires e in SelectEdges(s.graph(owner).value, owner, dir) && s.shouldTraverse(e)
    requires acc.seen + [e.target] <= v.seen && v.seen <= r.seen
    requires s.isMatch(e) ==> e.source in r.found
    ensures EnteredVia(s, dir, r, |acc.seen|)
  {
    assert (acc.seen + [e.target])[|acc.seen|] == e.target;
    assert r.seen[jo] == owner && r.seen[|acc.seen|] == e.target;
  }

  /** The traversal step of `WalkWitnesses`: the edge's target is witnessed by the edge,
      the IRIs its search entered by their own witnesses, the rest by the remaining walk. */
  /** What a traversed edge and the search it started found is still found at the end of
      the walk. */
  lemma FoundCarried(s: Strategy, e: Edge, acc: Visit, v: Visit, next: Visit, r: Visit)
    requires s.shouldTraverse(e) && next == After(s, e, acc, v) && next.found <= r.found
    ensures forall x :: x in v.found ==> x in r.found
    ensures s.isMatch(e) ==> e.source in r.found
  {
    PrefixMembers(next.found, r.found);
    forall x | x in v.found ensures x in r.found {
      var k :| 0 <= k < |v.found| && v.found[k] == x;
      assert next.found[|next.found| - |v.found| + k] == x;
    }
    if s.isMatch(e) {
      assert next.found[|acc.found|] == e.source;
    }
  }

  lemma WitnessStep(s: Strategy, dir: Direction, owner: Iri, jo: nat, e: Edge, acc: Visit, v: Visit, next: Visit, r: Visit)
    requires jo < |acc.seen| && acc.seen[jo] == owner && s.graph(owner).Success?
    requires e in SelectEdges(s.graph(owner).value, owner, dir) && s.shouldTraverse(e)
    requires acc.seen + [e.target] <= v.seen
    requires forall k {:trigger EnteredVia(s, dir, v, k)} :: |acc.seen| < k < |v.seen| ==> EnteredVia(s, dir, v, k)
    requires next == After(s, e, acc, v)
    requires next.seen <= r.seen && next.found <= r.found
    requires forall k {:trigger EnteredVia(s, dir, r, k)} :: |next.seen| <= k < |r.seen| ==> EnteredVia(s, dir, r, k)
    ensures forall k {:trigger EnteredVia(s, dir, r, k)} :: |acc.seen| <= k < |r.seen| ==> EnteredVia(s, dir, r, k)
  {
    FoundCarried(s, e, acc, v, next, r);
    assert next.seen == v.seen;
    forall k | |acc.seen| <= k < |v.seen| ensures EnteredVia(s, dir, r, k) {
      if k == |acc.seen| {
        EnteredByEdge(s, dir, owner, jo, e, acc, v, r);
      } else {
        EnteredViaGrows(s, dir, v, r, k);
      }
    }
  }

  /** Every IRI a search enters after `iri` was entered through a traversable edge from
      an IRI entered before it. */
  lemma {:induction false} SearchWitnesses(s: Strategy, dir: Direction, universe: set<Iri>, iri: Iri, seen: seq<Iri>)
    requires Closed(s.graph, universe) && iri in universe && iri !in seen
    requires Search(s, dir, universe, iri, seen).Success?
    ensures var r := Search(s, dir, universe, iri, seen).value;
      forall k {:trigger EnteredVia(s, dir, r, k)} :: |seen| < k < |r.seen| ==> EnteredVia(s, dir, r, k)
    decreases |universe - Elements(seen)|, 0
  {
    var edges := SelectEdges(s.graph(iri).value, iri, dir);
    EnterShrinks(universe, seen, iri);
    assert (seen + [iri])[|seen|] == iri;
    WalkWitnesses(s, dir, universe, iri, |seen|, edges, 0, Visit([], seen + [iri]));
  }

  lemma {:induction false} WalkWitnesses(s: Strategy, dir: Direction, universe: set<Iri>, owner: Iri, jo: nat, edges: seq<Edge>, i: nat, acc: Visit)
    requires Closed(s.graph, universe) && i <= |edges|
    requires owner in universe && s.graph(owner).Success?
    requires jo < |acc.seen| && acc.seen[jo] == owner
    requires edges == SelectEdges(s.graph(owner).value, owner, dir)
    requires Walk(s, dir, universe, owner, edges, i, acc).Success?
    ensures var r := Walk(s, dir, universe, owner, edges, i, acc).value;
      forall k {:trigger EnteredVia(s, dir, r, k)} :: |acc.seen| <= k < |r.seen| ==> EnteredVia(s, dir, r, k)
    decreases |universe - Elements(acc.seen)|, 1, |edges| - i
  {
    if i < |edges| {
      var e := edges[i];
      if e.target in acc.seen {
        WalkWitnesses(s, dir, universe, owner, jo, edges, i + 1, acc);
      } else {
        assert e in s.graph(owner).value.edges;
        assert ClosedAt(s.graph, universe, owner);
        var r := Walk(s, dir, universe, owner, edges, i, acc).value;
        if s.shouldTraverse(e) {
          var v := Search(s, dir, universe, e.target, acc.seen).value;
          SearchWitnesses(s, dir, universe, e.target, acc.seen);
          GrowthNeverWidens(universe, acc.seen, v.seen);
          var next := After(s, e, acc, v);
          assert Walk(s, dir, universe, owner, edges, i, acc) == Walk(s, dir, universe, owner, edges, i + 1, next);
          WalkWitnesses(s, dir, universe, owner, jo, edges, i + 1, next);
          WitnessStep(s, dir, owner, jo, e, acc, v, next, r);
        } else {
          var next := After(s, e, acc, acc);
          assert Walk(s, dir, universe, owner, edges, i, acc) == Walk(s, dir, universe, owner, edges, i + 1, next);
          WalkWitnesses(s, dir, universe, owner, jo, edges, i + 1, next);
        }
      }
    }
  }

  // ------------------------------------------------------------ examined edges

  /** The sources of the matching edges of `log`, in order. */
  function Sources(s: Strategy, log: seq<Edge>): seq<Iri> {
    Map(Filter(log, s.isMatch), (e: Edge) => e.source)
  }

  lemma SourcesConcat(s: Strategy, a: seq<Edge>, b: seq<Edge>)
    ensures Sources(s, a + b) == Sources(s, a) + Sources(s, b)
  {
    FilterConcat(a, b, s.isMatch);
    MapConcat(Filter(a, s.isMatch), Filter(b, s.isMatch), (e: Edge) => e.source);
  }

  lemma SourcesOne(s: Strategy, e: Edge)
    ensures Sources(s, [e]) == if s.isMatch(e) then [e.source] else []
  {
    assert [e][1..] == [];
  }

  /** The edges a search from `iri` examines, in order: each edge it reaches whose target
      has not been entered yet, followed by the edges examined by the search it starts. */
  ghost function SearchLog(s: Strategy, dir: Direction, universe: set<Iri>, iri: Iri, seen: seq<Iri>): seq<Edge>
    requires Closed(s.graph, universe) && iri in universe && iri !in seen
    decreases |universe - Elements(seen)|, 0
  {
    match s.graph(iri)
    case Failure(_) => []
    case Success(g) =>
      EnterShrinks(universe, seen, iri);
      WalkLog(s, dir, universe, iri, SelectEdges(g, iri, dir), 0, Visit([], seen + [iri]))
  }

  ghost function WalkLog(s: Strategy, dir: Direction, universe: set<Iri>, owner: Iri, edges: seq<Edge>, i: nat, acc: Visit): seq<Edge>
    requires Closed(s.graph, universe) && i <= |edges|
    requires owner in universe && s.graph(owner).Success?
    requires edges == SelectEdges(s.graph(owner).value, owner, dir)
    decreases |universe - Elements(acc.seen)|, 1, |edges| - i
  {
    if i == |edges| then []
    else
      var e := edges[i];
      if e.target in acc.seen then WalkLog(s, dir, universe, owner, edges, i + 1, acc)
      else
        assert e in s.graph(owner).value.edges;
        assert ClosedAt(s.graph, universe, owner);
        if s.shouldTraverse(e) then
          match Search(s, dir, universe, e.target, acc.seen)
          case Failure(_) => [e]
          case Success(v) =>
            GrowthNeverWidens(universe, acc.seen, v.seen);
            [e] + SearchLog(s, dir, universe, e.target, acc.seen) + WalkLog(s, dir, universe, owner, edges, i + 1, After(s, e, acc, v))
        else [e] + WalkLog(s, dir, universe, owner, edges, i + 1, After(s, e, acc, acc))
  }

  /** A search finds exactly the sources of the matching edges it examines, once each and
      in the order it examines them. */
  lemma {:induction false} SearchLogged(s: Strategy, dir: Direction, universe: set<Iri>, iri: Iri, seen: seq<Iri>)
    requires Closed(s.graph, universe) && iri in universe && iri !in seen
    requires Search(s, dir, universe, iri, seen).Success?
    ensures Search(s, dir, universe, iri, seen).value.found == Sources(s, SearchLog(s, dir, universe, iri, seen))
    decreases |universe - Elements(seen)|, 0
  {
    var edges := SelectEdges(s.graph(iri).value, iri, dir);
    EnterShrinks(universe, seen, iri);
    WalkLogged(s, dir, universe, iri, edges, 0, Visit([], seen + [iri]));
    assert [] + Sources(s, WalkLog(s, dir, universe, iri, edges, 0, Visit([], seen + [iri])))
      == Sources(s, WalkLog(s, dir, universe, iri, edges, 0, Visit([], seen + [iri])));
  }

  /** One step of `WalkLogged`: the edge's own source, then what the search it starts
      finds (nothing when it is not traversed), then what the rest of the walk finds. */
  lemma LoggedStep(s: Strategy, e: Edge, acc: Visit, v: Visit, next: Visit, r: Visit, sub: seq<Edge>, rest: seq<Edge>)
    requires next == After(s, e, acc, v)
    requires s.shouldTraverse(e) ==> v.found == Sources(s, sub)
    requires !s.shouldTraverse(e) ==> sub == []
    requires r.found == next.found + Sources(s, rest)
    ensures r.found == acc.found + Sources(s, [e] + sub + rest)
  {
    var own, mid, tail := Sources(s, [e]), Sources(s, sub), Sources(s, rest);
    assert Sources(s, [e] + sub + rest) == own + mid + tail by {
      SourcesConcat(s, [e] + sub, rest);
      SourcesConcat(s, [e], sub);
    }
    assert next.found == acc.found + own + mid by {
      SourcesOne(s, e);
      if !s.shouldTraverse(e) {
        assert mid == [] by { assert Filter(sub, s.isMatch) == []; }
        assert acc.found + own + [] == acc.found + own;
      }
    }
    calc {
      r.found;
      next.found + tail;
      acc.found + own + mid + tail;
      { Regroup(acc.found, own, mid, tail); }
      acc.found + (own + mid + tail);
    }
  }

  lemma Regroup<T>(a: seq<T>, b: seq<T>, c: seq<T>, d: seq<T>)
    ensures a + b + c + d == a + (b + c + d)
  {
  }

  lemma {:induction false} WalkLogged(s: Strategy, dir: Direction, universe: set<Iri>, owner: Iri, edges: seq<Edge>, i: nat, acc: Visit)
    requires Closed(s.graph, universe) && i <= |edges|
    requires owner in universe && s.graph(owner).Success?
    requires edges == SelectEdges(s.graph(owner).value, owner, dir)
    requires Walk(s, dir, universe, owner, edges, i, acc).Success?
    ensures Walk(s, dir, universe, owner, edges, i, acc).value.found == acc.found + Sources(s, WalkLog(s, dir, universe, owner, edges, i, acc))
    decreases |universe - Elements(acc.seen)|, 1, |edges| - i
  {
    if i == |edges| {
      assert acc.found + [] == acc.found;
    } else {
      var e := edges[i];
      if e.target in acc.seen {
        WalkLogged(s, dir, universe, owner, edges, i + 1, acc);
      } else {
        assert e in s.graph(owner).value.edges;
        assert ClosedAt(s.graph, universe, owner);
        if s.shouldTraverse(e) {
          var v := Search(s, dir, universe, e.target, acc.seen).value;
          SearchLogged(s, dir, universe, e.target, acc.seen);
          GrowthNeverWidens(universe, acc.seen, v.seen);
          var next := After(s, e, acc, v);
          assert Walk(s, dir, universe, owner, edges, i, acc) == Walk(s, dir, universe, owner, edges, i + 1, next);
          WalkLogged(s, dir, universe, owner, edges, i + 1, next);
          var sub := SearchLog(s, dir, universe, e.target, acc.seen);
          var rest := WalkLog(s, dir, universe, owner, edges, i + 1, next);
          assert WalkLog(s, dir, universe, owner, edges, i, acc) == [e] + sub + rest;
          LoggedStep(s, e, acc, v, next, Walk(s, dir, universe, owner, edges, i + 1, next).value, sub, rest);
        } else {
          var next := After(s, e, acc, acc);
          assert Walk(s, dir, universe, owner, edges, i, acc) == Walk(s, dir, universe, owner, edges, i + 1, next);
          WalkLogged(s, dir, universe, owner, edges, i + 1, next);
          var rest := WalkLog(s, dir, universe, owner, edges, i + 1, next);
          assert WalkLog(s, dir, universe, owner, edges, i, acc) == [e] + rest;
          LoggedStep(s, e, acc, acc, next, Walk(s, dir, universe, owner, edges, i + 1, next).value, [], rest);
        }
      }
    }
  }

  /** The number of matching edges selected outgoing at `x`. */
  ghost function MatchingEdges(s: Strategy, x: Iri): nat {
    if s.graph(x).Success? then |Filter(SelectEdges(s.graph(x).value, x, Outgoing), s.isMatch)| else 0
  }

  lemma {:induction false} AllSameCount<T>(q: seq<T>, x: T)
    requires forall k :: 0 <= k < |q| ==> q[k] == x
    ensures multiset(q)[x] == |q|
    decreases |q|
  {
    if |q| > 0 {
      assert q == [q[0]] + q[1..];
      AllSameCount(q[1..], x);
    }
  }

  /** Among edges that all leave `x`, `x` is the source of exactly the matching ones. */
  lemma OwnSourcesCount(s: Strategy, x: Iri, edges: seq<Edge>)
    requires forall e :: e in edges ==> e.source == x
    ensures multiset(Sources(s, edges))[x] == |Filter(edges, s.isMatch)|
  {
    var matching := Filter(edges, s.isMatch);
    forall k | 0 <= k < |matching| ensures Sources(s, edges)[k] == x {
      assert matching[k] in matching;
    }
    AllSameCount(Sources(s, edges), x);
  }

  /** The count of `x` among the sources of `edges[i..]` splits off the edge at `i`. */
  lemma SourcesCountSplits(s: Strategy, edges: seq<Edge>, i: nat, x: Iri)
    requires i < |edges|
    ensures multiset(Sources(s, edges[i..]))[x] == multiset(Sources(s, [edges[i]]))[x] + multiset(Sources(s, edges[i + 1..]))[x]
  {
    assert edges[i..] == [edges[i]] + edges[i + 1..];
    SourcesConcat(s, [edges[i]], edges[i + 1..]);
  }

  /** The traversal step of `WalkLogBound`: the edge counts for its owner, the search it
      starts for IRIs entered by it, and the rest of the walk for IRIs entered after. */
  lemma BoundStep(s: Strategy, x: Iri, owner: Iri, e: Edge, before: seq<Iri>, middle: seq<Iri>, after: seq<Iri>,
                  sub: seq<Edge>, rest: seq<Edge>, later: nat, limit: nat)
    requires e.source == owner && owner in before
    requires before <= middle <= after
    requires multiset(Sources(s, sub))[x] <= if x in middle && x !in before then limit else 0
    requires multiset(Sources(s, rest))[x] <= (if x == owner then later else 0) + (if x in after && x !in middle then limit else 0)
    ensures multiset(Sources(s, [e] + sub + rest))[x] <=
      (if x == owner then multiset(Sources(s, [e]))[x] + later else 0) + (if x in after && x !in before then limit else 0)
  {
    SourcesConcat(s, [e] + sub, rest);
    SourcesConcat(s, [e], sub);
    SourcesOne(s, e);
    PrefixMembers(before, middle);
    PrefixMembers(middle, after);
  }

  /** An outgoing search's log holds, for each `x`, at most as many matching edges from `x`
      as `x` has, and none from an IRI it did not enter. */
  lemma {:induction false} SearchLogBound(s: Strategy, universe: set<Iri>, iri: Iri, seen: seq<Iri>, x: Iri)
    requires Closed(s.graph, universe) && iri in universe && iri !in seen
    requires Search(s, Outgoing, universe, iri, seen).Success?
    ensures var r := Search(s, Outgoing, universe, iri, seen).value;
      multiset(Sources(s, SearchLog(s, Outgoing, universe, iri, seen)))[x] <=
        if x in r.seen && x !in seen then MatchingEdges(s, x) else 0
    decreases |universe - Elements(seen)|, 0
  {
    var edges := SelectEdges(s.graph(iri).value, iri, Outgoing);
    var r := Search(s, Outgoing, universe, iri, seen).value;
    EnterShrinks(universe, seen, iri);
    assert (seen + [iri])[|seen|] == iri;
    WalkLogBound(s, universe, iri, edges, 0, Visit([], seen + [iri]), x);
    assert edges[0..] == edges;
    OwnSourcesCount(s, iri, edges);
    PrefixMembers(seen + [iri], r.seen);
  }

  lemma {:induction false} WalkLogBound(s: Strategy, universe: set<Iri>, owner: Iri, edges: seq<Edge>, i: nat, acc: Visit, x: Iri)
    requires Closed(s.graph, universe) && i <= |edges|
    requires owner in universe && s.graph(owner).Success? && owner in acc.seen
    requires edges == SelectEdges(s.graph(owner).value, owner, Outgoing)
    requires Walk(s, Outgoing, universe, owner, edges, i, acc).Success?
    ensures var r := Walk(s, Outgoing, universe, owner, edges, i, acc).value;
      multiset(Sources(s, WalkLog(s, Outgoing, universe, owner, edges, i, acc)))[x] <=
        (if x == owner then multiset(Sources(s, edges[i..]))[x] else 0) +
        (if x in r.seen && x !in acc.seen then MatchingEdges(s, x) else 0)
    decreases |universe - Elements(acc.seen)|, 1, |edges| - i
  {
    if i < |edges| {
      var e := edges[i];
      var r := Walk(s, Outgoing, universe, owner, edges, i, acc).value;
      SourcesCountSplits(s, edges, i, x);
      assert e.source == owner by { assert e in edges; }
      SourcesOne(s, e);
      if e.target in acc.seen {
        WalkLogBound(s, universe, owner, edges, i + 1, acc, x);
      } else {
        assert e in s.graph(owner).value.edges;
        assert ClosedAt(s.graph, universe, owner);
        if s.shouldTraverse(e) {
          var v := Search(s, Outgoing, universe, e.target, acc.seen).value;
          SearchLogBound(s, universe, e.target, acc.seen, x);
          GrowthNeverWidens(universe, acc.seen, v.seen);
          var next := After(s, e, acc, v);
          assert Walk(s, Outgoing, universe, owner, edges, i, acc) == Walk(s, Outgoing, universe, owner, edges, i + 1, next);
          WalkLogBound(s, universe, owner, edges, i + 1, next, x);
          var sub := SearchLog(s, Outgoing, universe, e.target, acc.seen);
          var rest := WalkLog(s, Outgoing, universe, owner, edges, i + 1, next);
          assert WalkLog(s, Outgoing, universe, owner, edges, i, acc) == [e] + sub + rest;
          BoundStep(s, x, owner, e, acc.seen, v.seen, r.seen, sub, rest,
            multiset(Sources(s, edges[i + 1..]))[x], MatchingEdges(s, x));
        } else {
          var next := After(s, e, acc, acc);
          assert Walk(s, Outgoing, universe, owner, edges, i, acc) == Walk(s, Outgoing, universe, owner, edges, i + 1, next);
          WalkLogBound(s, universe, owner, edges, i + 1, next, x);
          var rest := WalkLog(s, Outgoing, universe, owner, edges, i + 1, next);
          assert WalkLog(s, Outgoing, universe, owner, edges, i, acc) == [e] + rest;
          SourcesConcat(s, [e], rest);
        }
      }
    }
  }

  /** In an outgoing search a result occurs at most as many times as it has matching
      edges of its own, however many IRIs it is reached from. */
  lemma ResultMultiplicity(s: Strategy, universe: set<Iri>, start: Iri, x: Iri)
    requires Closed(s.graph, universe) && start in universe
    requires DepthFirstSearch(s, Outgoing, universe, start).Success?
    ensures multiset(DepthFirstSearch(s, Outgoing, universe, start).value)[x] <= MatchingEdges(s, x)
  {
    SearchLogged(s, Outgoing, universe, start, []);
    SearchLogBound(s, universe, start, [], x);
  }

  // ------------------------------------------------------------ entry point

  /** The IRIs a search from `start` enters, in entry order. */
  ghost function Entered(s: Strategy, dir: Direction, universe: set<Iri>, start: Iri): seq<Iri>
    requires Closed(s.graph, universe) && start in universe
  {
    match Search(s, dir, universe, start, [])
    case Failure(_) => []
    case Success(v) => v.seen
  }

  /** The public entry: starts from an empty `seen` and returns the matched sources. A
      successful search enters `start` first and no IRI twice, explains every result by
      a matching edge at an entered IRI, leaves every entered IRI settled, and entered
      every later IRI through a traversable edge whose source, if it matches, is a
      result. */
  function DepthFirstSearch(s: Strategy, dir: Direction, universe: set<Iri>, start: Iri): (r: Result<seq<Iri>, OlsError>)
    requires Closed(s.graph, universe) && start in universe
    ensures s.graph(start).Failure? ==> r.Failure?
    ensures r.Success? ==>
      var entered := Entered(s, dir, universe, start);
      && |entered| > 0 && entered[0] == start && NoDup(entered)
      && (forall y :: y in entered ==> y in universe)
      && (forall x :: x in r.value ==> exists y :: y in entered && MatchedAt(s, dir, y, x))
      && (forall y {:trigger Settled(s, dir, y, Visit(r.value, entered))} :: y in entered ==> Settled(s, dir, y, Visit(r.value, entered)))
      && (forall k {:trigger EnteredVia(s, dir, Visit(r.value, entered), k)} :: 0 < k < |entered| ==> EnteredVia(s, dir, Visit(r.value, entered), k))
    ensures dir == Incoming && r.Success? ==> r.value == []
  {
    match Search(s, dir, universe, start, [])
    case Failure(e) => Failure(e)
    case Success(v) =>
      SearchEnters(s, dir, universe, start, []);
      SearchNoRepeat(s, dir, universe, start, []);
      SearchExplains(s, dir, universe, start, []);
      SearchSettles(s, dir, universe, start, []);
      SearchWitnesses(s, dir, universe, start, []);
      assert v.seen[0] == start by {
        assert ([] + [start])[0] == start;
      }
      assert forall y {:trigger Settled(s, dir, y, v)} :: y in v.seen ==> Settled(s, dir, y, v) by {
        forall y | y in v.seen ensures Settled(s, dir, y, v) {
          var k :| 0 <= k < |v.seen| && v.seen[k] == y;
        }
      }
      Success(v.found)
  }

  /** Some traversable edge selected at `y` leads to `z`. */
  ghost predicate Edged(s: Strategy, dir: Direction, y: Iri, z: Iri) {
    s.graph(y).Success? &&
    exists e :: e in SelectEdges(s.graph(y).value, y, dir) && s.shouldTraverse(e) && e.target == z
  }

  /** `path` walks from `path[0]` along traversable edges, each selected at its source. */
  ghost predicate TraversablePath(s: Strategy, dir: Direction, path: seq<Iri>) {
    forall k {:trigger Edged(s, dir, path[k], path[k + 1])} :: 0 <= k < |path| - 1 ==> Edged(s, dir, path[k], path[k + 1])
  }

  /** One step along a traversable edge from an entered IRI stays among the entered IRIs. */
  lemma EnteredStep(s: Strategy, dir: Direction, found: seq<Iri>, entered: seq<Iri>, y: Iri, z: Iri)
    requires y in entered && Settled(s, dir, y, Visit(found, entered))
    requires Edged(s, dir, y, z)
    ensures z in entered
  {
    var e :| e in SelectEdges(s.graph(y).value, y, dir) && s.shouldTraverse(e) && e.target == z;
    assert Covered(s, e, Visit(found, entered));
  }

  /** A successful search enters every IRI reachable from its start along traversable
      edges. */
  lemma ReachableIsEntered(s: Strategy, dir: Direction, universe: set<Iri>, start: Iri, path: seq<Iri>)
    requires Closed(s.graph, universe) && start in universe
    requires DepthFirstSearch(s, dir, universe, start).Success?
    requires |path| > 0 && path[0] == start && TraversablePath(s, dir, path)
    ensures forall k :: 0 <= k < |path| ==> path[k] in Entered(s, dir, universe, start)
  {
    var entered := Entered(s, dir, universe, start);
    var found := DepthFirstSearch(s, dir, universe, start).value;
    var n := 1;
    while n < |path|
      invariant 1 <= n <= |path|
      invariant forall k :: 0 <= k < n ==> path[k] in entered
    {
      var m := n - 1;
      assert path[m + 1] == path[n];
      assert Edged(s, dir, path[m], path[m + 1]);
      EnteredStep(s, dir, found, entered, path[m], path[n]);
      n := n + 1;
    }
  }
}

=== FILE: ordo.dfy ===
/** The Orphanet Rare Disease Ontology (ORDO) classification rules: which relations the
    search follows and when a node's statements make it a main disease category. */
module Ordo {
  import opened Iris
  import opened Rdf
  import Seqs

  const GroupOfDisorders: Iri := "http://www.orpha.net/ORDO/Orphanet_557492"
  const Disorder: Iri := "http://www.orpha.net/ORDO/Orphanet_557493"
  const SubClassOf: Iri := "http://www.w3.org/2000/01/rdf-schema#subClassOf"
  const PartOf: Iri := "http://www.orpha.net/ORDO/Orphanet_C021"
  const ObsoleteDisorder: Iri := "http://www.orpha.net/ORDO/Orphanet_C052"
  const NonRareDisorder: Iri := "http://www.orpha.net/ORDO/Orphanet_C048"
  const ClinicalEntity: Iri := "http://www.orpha.net/ORDO/Orphanet_C001"
  const ObsoleteClinicalEntity: Iri := "http://www.orpha.net/ORDO/Orphanet_C050"
  const NonRareClinicalEntity: Iri := "http://www.orpha.net/ORDO/Orphanet_C046"
  const DeprecatedClinicalEntity: Iri := "http://www.orpha.net/ORDO/Orphanet_C042"
  const InactiveClinicalEntity: Iri := "http://www.orpha.net/ORDO/Orphanet_C041"

  /** The legacy BFO "part of" relation, which this rule set no longer follows. */
  const LegacyPartOf: Iri := "http://purl.obolibrary.org/obo/BFO_0000050"

  /** The traversable relations. */
  const Relations: seq<Iri> := [SubClassOf, PartOf]
  /** Nodes at which a subClassOf chain is resolved. */
  const TerminalNodes: seq<Iri> := [ClinicalEntity, InactiveClinicalEntity]
  /** Status markers that are their own category. */
  const Inactive: seq<Iri> := [DeprecatedClinicalEntity, ObsoleteClinicalEntity, NonRareClinicalEntity]

  predicate IsSubClassOrPartOfRelationship(e: Edge)
    ensures IsSubClassOrPartOfRelationship(e) <==> e.pred == SubClassOf || e.pred == PartOf
    ensures e.pred == LegacyPartOf ==> !IsSubClassOrPartOfRelationship(e)
  {
    e.pred in Relations
  }

  predicate IsNotATerminalNode(value: Iri)
    ensures !IsNotATerminalNode(value) <==> value == ClinicalEntity || value == InactiveClinicalEntity || value == GroupOfDisorders
  {
    value !in TerminalNodes && value != GroupOfDisorders
  }

  /** The whole-node decision: `node` is the batch of statements of one subject. */
  predicate IsMainCategory(node: seq<Edge>)
  {
    if |node| == 0 then false
    else if node[0].subject in Inactive then true
    else if !(exists e :: e in node && e.obj.value == GroupOfDisorders) then false
    else |NonTerminalTargets(node)| == 0
  }

  /** The subClassOf targets of `node` that are neither terminal nodes nor the group head. */
  function NonTerminalTargets(node: seq<Edge>): seq<Iri>
  {
    var subclass := Seqs.Filter(node, (e: Edge) => e.pred == SubClassOf);
    Seqs.Filter(Seqs.Map(subclass, (e: Edge) => e.obj.value), IsNotATerminalNode)
  }

  /** A subClassOf edge that points somewhere other than a terminal node or the group head. */
  predicate Disqualifies(e: Edge) {
    e.pred == SubClassOf && e.obj.value != ClinicalEntity && e.obj.value != InactiveClinicalEntity && e.obj.value != GroupOfDisorders
  }

  lemma NonTerminalTargetsExact(node: seq<Edge>)
    ensures forall e :: e in node && Disqualifies(e) ==> e.obj.value in NonTerminalTargets(node)
    ensures forall v :: v in NonTerminalTargets(node) ==> exists e :: e in node && Disqualifies(e) && e.obj.value == v
  {
    var subclass := Seqs.Filter(node, (e: Edge) => e.pred == SubClassOf);
    var values := Seqs.Map(subclass, (e: Edge) => e.obj.value);
    forall e | e in node && Disqualifies(e) ensures e.obj.value in NonTerminalTargets(node) {
      assert e in subclass;
      var i :| 0 <= i < |subclass| && subclass[i] == e;
      assert values[i] == e.obj.value;
    }
    forall v | v in NonTerminalTargets(node) ensures exists e :: e in node && Disqualifies(e) && e.obj.value == v {
      assert v in values;
      var i :| 0 <= i < |values| && values[i] == v;
      assert subclass[i] in node && Disqualifies(subclass[i]);
    }
  }

  /** The decision restated over the edges as a set: an inactive first subject wins
      outright; otherwise some edge must reach the group head and no subClassOf edge may
      point elsewhere than a terminal node or the head. Edges of other predicates never
      disqualify. */
  lemma MainCategoryCharacterization(node: seq<Edge>)
    ensures IsMainCategory(node) <==>
      |node| > 0 &&
      (node[0].subject in {DeprecatedClinicalEntity, ObsoleteClinicalEntity, NonRareClinicalEntity} ||
       ((exists e :: e in node && e.obj.value == GroupOfDisorders) &&
        (forall e :: e in node ==> !Disqualifies(e))))
  {
    NonTerminalTargetsExact(node);
    if |NonTerminalTargets(node)| > 0 {
      assert NonTerminalTargets(node)[0] in NonTerminalTargets(node);
    }
  }

  /** The empty batch is never a category. */
  lemma EmptyIsNotMainCategory()
    ensures !IsMainCategory([])
  {
  }

  /** An inactive subject is a category whatever its edges are. */
  lemma InactiveIsMainCategory(node: seq<Edge>)
    requires |node| > 0 && node[0].subject in {DeprecatedClinicalEntity, ObsoleteClinicalEntity, NonRareClinicalEntity}
    ensures IsMainCategory(node)
  {
  }

  /** Without an edge to the group head an active node is never a category. */
  lemma NoGroupHeadIsNotMainCategory(node: seq<Edge>)
    requires |node| > 0 && node[0].subject !in {DeprecatedClinicalEntity, ObsoleteClinicalEntity, NonRareClinicalEntity}
    requires forall e :: e in node ==> e.obj.value != GroupOfDisorders
    ensures !IsMainCategory(node)
  {
  }

  /** For a batch of one subject, the order of the edges does not matter. */
  lemma MainCategoryPermutation(a: seq<Edge>, b: seq<Edge>)
    requires multiset(a) == multiset(b)
    requires forall i, j :: 0 <= i < |a| && 0 <= j < |a| ==> a[i].subject == a[j].subject
    ensures IsMainCategory(a) == IsMainCategory(b)
  {
    MainCategoryCharacterization(a);
    MainCategoryCharacterization(b);
    forall e ensures e in a <==> e in b {
      assert e in a <==> e in multiset(a);
      assert e in b <==> e in multiset(b);
    }
    if |a| > 0 {
      assert b[0] in multiset(a);
      assert a[0].subject == b[0].subject;
    } else {
      assert |b| == |multiset(b)| == 0;
    }
  }

  /** Without the one-subject premise order does matter: the first edge's subject decides. */
  lemma MixedSubjectsAreOrderSensitive()
    ensures var inactive := Edge(ObsoleteClinicalEntity, SubClassOf, Object(ClinicalEntity, Uri, Wrappers.None, Wrappers.None));
            var other := Edge(Disorder, SubClassOf, Object(Disorder, Uri, Wrappers.None, Wrappers.None));
            IsMainCategory([inactive, other]) && !IsMainCategory([other, inactive])
  {
    var other := Edge(Disorder, SubClassOf, Object(Disorder, Uri, Wrappers.None, Wrappers.None));
    var inactive := Edge(ObsoleteClinicalEntity, SubClassOf, Object(ClinicalEntity, Uri, Wrappers.None, Wrappers.None));
    assert Disqualifies(other);
    MainCategoryCharacterization([inactive, other]);
    MainCategoryCharacterization([other, inactive]);
  }
}

=== FILE: rdf.dfy ===
/** The GraphDB wire types: an RDF/JSON document maps each subject to a map from
    predicate to a list of objects. Swift dictionaries have no fixed iteration order;
    the model keeps them as association lists whose order is the iteration order. */
module Rdf {
  import opened Wrappers
  import opened Iris

  datatype ObjectType = Literal | Uri | BNode

  datatype Object = Object(value: string, kind: ObjectType, lang: Option<string>, dataType: Option<string>)

  /** One statement `(subject, predicate, object)`. */
  datatype Edge = Edge(subject: Iri, pred: Iri, obj: Object)

  datatype PredicateObjects = PredicateObjects(pred: Iri, objects: seq<Object>)

  datatype SubjectStatements = SubjectStatements(subject: Iri, predicates: seq<PredicateObjects>)

  /** A decoded `application/rdf+json` response. */
  type RdfJson = seq<SubjectStatements>

  /** The statements of one subject, as the search assembles them: one edge per
      object, predicate by predicate. */
  function Batch(entry: SubjectStatements): seq<Edge> {
    Flatten(entry.subject, entry.predicates)
  }

  function Flatten(subject: Iri, preds: seq<PredicateObjects>): seq<Edge> {
    if |preds| == 0 then []
    else Objects(subject, preds[0].pred, preds[0].objects) + Flatten(subject, preds[1..])
  }

  /** A batch is exactly the flattening of its subject's predicate-to-objects map: every
      edge carries the subject, and an edge is in the batch iff its object is listed
      under its predicate. */
  lemma BatchIsFlattening(entry: SubjectStatements)
    ensures forall e :: e in Batch(entry) ==> e.subject == entry.subject
    ensures forall p, o :: p in entry.predicates && o in p.objects ==> Edge(entry.subject, p.pred, o) in Batch(entry)
    ensures forall e :: e in Batch(entry) ==> exists p :: p in entry.predicates && e.pred == p.pred && e.obj in p.objects
  {
    FlattenIsExact(entry.subject, entry.predicates);
  }

  lemma {:induction false} FlattenIsExact(subject: Iri, preds: seq<PredicateObjects>)
    ensures forall e :: e in Flatten(subject, preds) ==> e.subject == subject
    ensures forall p, o :: p in preds && o in p.objects ==> Edge(subject, p.pred, o) in Flatten(subject, preds)
    ensures forall e :: e in Flatten(subject, preds) ==> exists p :: p in preds && e.pred == p.pred && e.obj in p.objects
  {
    if |preds| > 0 {
      FlattenIsExact(subject, preds[1..]);
      var head := Objects(subject, preds[0].pred, preds[0].objects);
      forall p, o | p in preds && o in p.objects ensures Edge(subject, p.pred, o) in Flatten(subject, preds) {
        if p == preds[0] {
          var k :| 0 <= k < |p.objects| && p.objects[k] == o;
          assert head[k] == Edge(subject, p.pred, o);
        } else {
          assert p in preds[1..];
        }
      }
      forall e | e in Flatten(subject, preds) ensures exists p :: p in preds && e.pred == p.pred && e.obj in p.objects {
        if e in head {
          var k :| 0 <= k < |head| && head[k] == e;
          assert preds[0] in preds && e.obj == preds[0].objects[k];
        } else {
          var p :| p in preds[1..] && e.pred == p.pred && e.obj in p.objects;
          assert p in preds;
        }
      }
    }
  }

  function Objects(subject: Iri, pred: Iri, objects: seq<Object>): (r: seq<Edge>)
    ensures |r| == |objects|
    ensures forall i :: 0 <= i < |r| ==> r[i] == Edge(subject, pred, objects[i])
  {
    if |objects| == 0 then [] else [Edge(subject, pred, objects[0])] + Objects(subject, pred, objects[1..])
  }
}

=== FILE: repository.dfy ===
/** The GraphDB repository client: statement queries with a URL-keyed cache, the
    depth-first search over RDF/JSON statements, and label lookup for a node. */
module Repository {
  import opened Wrappers
  import opened Iris
  import opened Rdf
  import Ols

  type Direction = Ols.Direction

  const LabelPredicate: Iri := "http://www.w3.org/2000/01/rdf-schema#label"

  datatype GraphDbError =
    | Decoding
    | HttpError
      /** The transport itself failed; its error propagates unchanged. */
    | Transport

  // ---------------------------------------------------------------- queries

  /** The optional `subject`, `predicate` and `object` arguments of a statements query. */
  datatype Query = Query(subject: Option<Iri>, pred: Option<Iri>, obj: Option<Iri>)

  predicate Constrained(q: Query) {
    q.subject.Some? || q.pred.Some? || q.obj.Some?
  }

  datatype QueryItem = QueryItem(name: string, value: string)

  function Bracket(iri: Iri): string {
    "<" + iri + ">"
  }

  function Unbracket(value: string): Iri {
    if |value| >= 2 then value[1..|value| - 1] else value
  }

  function ItemFor(name: string, arg: Option<Iri>): seq<QueryItem> {
    if arg.Some? then [QueryItem(name, Bracket(arg.value))] else []
  }

  /** Position of a parameter name in the emitted order subj, pred, obj. */
  function NameRank(name: string): nat {
    if name == "subj" then 0 else if name == "pred" then 1 else 2
  }

  /** The query items of a statements request. An unconstrained query is a fatal error
      in the caller, hence the precondition. */
  function QueryItems(q: Query): (items: seq<QueryItem>)
    requires Constrained(q)
    ensures 1 <= |items| <= 3
    ensures forall i, j :: 0 <= i < j < |items| ==> NameRank(items[i].name) < NameRank(items[j].name)
    ensures forall i :: 0 <= i < |items| ==> items[i].name in ["subj", "pred", "obj"]
    ensures forall i :: 0 <= i < |items| ==>
      |items[i].value| >= 2 && items[i].value[0] == '<' && items[i].value[|items[i].value| - 1] == '>'
  {
    ItemFor("subj", q.subject) + ItemFor("pred", q.pred) + ItemFor("obj", q.obj)
  }

  /** The value of the first item called `name`, with its angle brackets removed. */
  function Argument(items: seq<QueryItem>, name: string): Option<Iri> {
    if |items| == 0 then None
    else if items[0].name == name then Some(Unbracket(items[0].value))
    else Argument(items[1..], name)
  }

  /** Reads the constraints back from a list of query items. */
  function ParseItems(items: seq<QueryItem>): Query {
    Query(Argument(items, "subj"), Argument(items, "pred"), Argument(items, "obj"))
  }

  lemma UnbracketBracket(iri: Iri)
    ensures Unbracket(Bracket(iri)) == iri
  {
    assert Bracket(iri)[1..|Bracket(iri)| - 1] == iri;
  }

  lemma {:induction false} ArgumentConcat(a: seq<QueryItem>, b: seq<QueryItem>, name: string)
    requires forall i :: 0 <= i < |a| ==> a[i].name != name
    ensures Argument(a + b, name) == Argument(b, name)
  {
    if |a| == 0 {
      assert a + b == b;
    } else {
      assert (a + b)[1..] == a[1..] + b;
      ArgumentConcat(a[1..], b, name);
    }
  }

  lemma ArgumentOfItem(name: string, arg: Option<Iri>, rest: seq<QueryItem>)
    ensures Argument(ItemFor(name, arg) + rest, name) == (if arg.Some? then arg else Argument(rest, name))
  {
    if arg.Some? {
      UnbracketBracket(arg.value);
      assert (ItemFor(name, arg) + rest)[0] == QueryItem(name, Bracket(arg.value));
    } else {
      assert ItemFor(name, arg) + rest == rest;
    }
  }

  /** Emitting and reading back the query items loses nothing. */
  lemma ParseQueryItems(q: Query)
    requires Constrained(q)
    ensures ParseItems(QueryItems(q)) == q
  {
    var s, p, o := ItemFor("subj", q.subject), ItemFor("pred", q.pred), ItemFor("obj", q.obj);
    assert QueryItems(q) == s + (p + o);
    ArgumentOfItem("subj", q.subject, p + o);
    ArgumentOfItem("pred", q.pred, o);
    ArgumentOfItem("obj", q.obj, []);
    ArgumentConcat(p, o, "subj");
    ArgumentConcat(o, [], "subj");
    ArgumentConcat(s, p + o, "pred");
    ArgumentConcat(s + p, o, "obj");
    assert s + p + o == s + (p + o);
    assert o + [] == o;
  }

  /** Where the repository lives. */
  datatype Endpoint = Endpoint(base: string, repository: string)

  datatype Url = Url(base: string, path: seq<string>, query: seq<QueryItem>)

  function StatementsUrl(ep: Endpoint, q: Query): Url
    requires Constrained(q)
  {
    Url(ep.base, ["repositories", ep.repository, "statements"], QueryItems(q))
  }

  /** Different constraints never share a cache key. */
  lemma StatementsUrlInjective(ep: Endpoint, q1: Query, q2: Query)
    requires Constrained(q1) && Constrained(q2)
    requires StatementsUrl(ep, q1) == StatementsUrl(ep, q2)
    ensures q1 == q2
  {
    ParseQueryItems(q1);
    ParseQueryItems(q2);
  }

  // ---------------------------------------------------------------- cache

  datatype Cache = Cache(entries: map<Url, RdfJson>)

  const EmptyCache: Cache := Cache(map[])

  function Read(c: Cache, u: Url): (r: Option<RdfJson>)
    ensures r.Some? <==> u in c.entries
  {
    if u in c.entries then Some(c.entries[u]) else None
  }

  function Update(c: Cache, u: Url, v: RdfJson): (r: Cache)
    ensures Read(r, u) == Some(v)
    ensures forall k :: k != u ==> Read(r, k) == Read(c, k)
  {
    Cache(c.entries[u := v])
  }

  lemma EmptyCacheReadsNothing(u: Url)
    ensures Read(EmptyCache, u) == None
  {
  }

  // ---------------------------------------------------------------- statements

  /** What the server sent: a status and, when the body decoded, the statements. */
  datatype Reply = Reply(status: int, body: Option<RdfJson>) | TransportFailure

  /** What a reply yields: only a 200 reply whose body decoded succeeds, with that body;
      otherwise the transport failure, then the status, then the body decides the error. */
  function Receive(reply: Reply): (r: Result<RdfJson, GraphDbError>)
    ensures r.Success? <==> reply.Reply? && reply.status == 200 && reply.body.Some?
    ensures r.Success? ==> r.value == reply.body.value
    ensures reply.TransportFailure? ==> r == Failure(Transport)
    ensures reply.Reply? && reply.status != 200 ==> r == Failure(HttpError)
    ensures reply.Reply? && reply.status == 200 && reply.body.None? ==> r == Failure(Decoding)
  {
    match reply
    case TransportFailure => Failure(Transport)
    case Reply(status, body) =>
      if status != 200 then Failure(HttpError)
      else if body.None? then Failure(Decoding)
      else Success(body.value)
  }

  /** One statements request: answered from the cache when its URL is there, otherwise
      fetched from `server`, with a decoded 200 reply stored under the URL. */
  function Statements(ep: Endpoint, q: Query, cache: Cache, server: Url -> Reply): (r: (Result<RdfJson, GraphDbError>, Cache))
    requires Constrained(q)
    ensures var u := StatementsUrl(ep, q);
      && (u in cache.entries ==> r == (Success(cache.entries[u]), cache))
      && (u !in cache.entries && server(u).Reply? && server(u).status != 200 ==> r == (Failure(HttpError), cache))
      && (u !in cache.entries && server(u).Reply? && server(u).status == 200 && server(u).body.None? ==> r == (Failure(Decoding), cache))
      && (u !in cache.entries && server(u).TransportFailure? ==> r == (Failure(Transport), cache))
      && (u !in cache.entries && server(u).Reply? && server(u).status == 200 && server(u).body.Some? ==>
            r == (Success(server(u).body.value), Update(cache, u, server(u).body.value)))
  {
    var u := StatementsUrl(ep, q);
    match Read(cache, u)
    case Some(json) => (Success(json), cache)
    case None =>
      match Receive(server(u))
      case Failure(e) => (Failure(e), cache)
      case Success(json) => (Success(json), Update(cache, u, json))
  }

  /** A cached URL is answered without consulting the server. */
  lemma CachedAnswerIgnoresServer(ep: Endpoint, q: Query, cache: Cache, s1: Url -> Reply, s2: Url -> Reply)
    requires Constrained(q) && StatementsUrl(ep, q) in cache.entries
    ensures Statements(ep, q, cache, s1) == Statements(ep, q, cache, s2)
  {
  }

  /** Repeating a request that succeeded gives the same answer from the cache, whatever
      the server would now say. */
  lemma RepeatIsServedFromCache(ep: Endpoint, q: Query, cache: Cache, s1: Url -> Reply, s2: Url -> Reply)
    requires Constrained(q)
    requires Statements(ep, q, cache, s1).0.Success?
    ensures var (r1, c1) := Statements(ep, q, cache, s1);
            Statements(ep, q, c1, s2) == (r1, c1)
  {
  }

  /** Every cached entry is what the server answers for its URL. */
  ghost predicate Coherent(cache: Cache, server: Url -> Reply) {
    forall u :: u in cache.entries ==> Receive(server(u)) == Success(cache.entries[u])
  }

  /** Against a server whose answers do not change, the cache is invisible: the result
      is the server's answer and the cache stays coherent. This is why the search below
      takes the lookup as a plain function. */
  lemma CacheIsTransparent(ep: Endpoint, q: Query, cache: Cache, server: Url -> Reply)
    requires Constrained(q) && Coherent(cache, server)
    ensures Statements(ep, q, cache, server).0 == Receive(server(StatementsUrl(ep, q)))
    ensures Coherent(Statements(ep, q, cache, server).1, server)
  {
  }

  // ---------------------------------------------------------------- search

  /** The lookup and closures a search runs with. */
  datatype Traversal = Traversal(
    fetch: Query -> Result<RdfJson, GraphDbError>,
    shouldTraverse: Edge -> bool,
    isMatch: seq<Edge> -> bool)

  /** The query for a node's statements in one direction. */
  function NodeQuery(dir: Direction, iri: Iri): (q: Query)
    requires dir != Ols.Both
    ensures Constrained(q)
    ensures dir == Ols.Outgoing ==> q.subject == Some(iri) && q.pred.None? && q.obj.None?
    ensures dir == Ols.Incoming ==> q.subject.None? && q.pred.None? && q.obj == Some(iri)
  {
    if dir == Ols.Outgoing then Query(Some(iri), None, None) else Query(None, None, Some(iri))
  }

  /** How a depth-bounded search ends: `None` when the bound on nested searches ran out
      before the search finished, otherwise the search's own outcome. */
  type Outcome = Option<Result<set<Iri>, GraphDbError>>

  /** The search finished and succeeded. */
  predicate Succeeded(o: Outcome) {
    o.Some? && o.value.Success?
  }

  /** The subjects found from `iri`, following at most `fuel` nested searches: `Both` is
      the union of the two single-direction searches, outgoing first; otherwise every
      subject of the fetched statements whose batch matches, together with the results
      of searching from the object of every traversable edge. The search keeps no
      visited set, so on a cycle of traversable edges it never finishes; `None` is where
      the model stops following it. */
  function DepthFirstSearch(t: Traversal, fuel: nat, dir: Direction, iri: Iri): (r: Outcome)
    ensures dir == Ols.Both ==>
      var out := DepthFirstSearch(t, fuel, Ols.Outgoing, iri);
      var inc := DepthFirstSearch(t, fuel, Ols.Incoming, iri);
      && (Succeeded(r) <==> Succeeded(out) && Succeeded(inc))
      && (Succeeded(r) ==> r.value.value == out.value.value + inc.value.value)
      && (!Succeeded(out) ==> r == out)
      && (Succeeded(out) && !Succeeded(inc) ==> r == inc)
    ensures dir != Ols.Both && fuel == 0 ==> r.None?
    ensures dir != Ols.Both && 0 < fuel && t.fetch(NodeQuery(dir, iri)).Failure? ==>
      r == Some(Failure(t.fetch(NodeQuery(dir, iri)).error))
    decreases fuel, if dir == Ols.Both then 1 else 0, 0
  {
    if dir == Ols.Both then
      match DepthFirstSearch(t, fuel, Ols.Outgoing, iri)
      case Some(Success(outgoing)) =>
        (match DepthFirstSearch(t, fuel, Ols.Incoming, iri)
         case Some(Success(incoming)) => Some(Success(incoming + outgoing))
         case other => other)
      case other => other
    else if fuel == 0 then None
    else
      match t.fetch(NodeQuery(dir, iri))
      case Failure(e) => Some(Failure(e))
      case Success(data) => SearchSubjects(t, fuel - 1, dir, data, 0, {})
  }

  /** Handles `data[i..]`, the subject entries fetched for one IRI; `fuel` bounds the
      searches it starts. */
  function SearchSubjects(t: Traversal, fuel: nat, dir: Direction, data: RdfJson, i: nat, acc: set<Iri>): Outcome
    requires dir != Ols.Both && i <= |data|
    decreases fuel, 2, |data| - i
  {
    if i == |data| then Some(Success(acc))
    else
      var batch := Batch(data[i]);
      var matched := if t.isMatch(batch) then acc + {data[i].subject} else acc;
      match SearchEdges(t, fuel, dir, batch, 0, matched)
      case Some(Success(found)) => SearchSubjects(t, fuel, dir, data, i + 1, found)
      case other => other
  }

  /** Follows the traversable edges among `edges[j..]`. */
  function SearchEdges(t: Traversal, fuel: nat, dir: Direction, edges: seq<Edge>, j: nat, acc: set<Iri>): Outcome
    requires dir != Ols.Both && j <= |edges|
    decreases fuel, 1, |edges| - j
  {
    if j == |edges| then Some(Success(acc))
    else if t.shouldTraverse(edges[j]) then
      match DepthFirstSearch(t, fuel, dir, edges[j].obj.value)
      case Some(Success(found)) => SearchEdges(t, fuel, dir, edges, j + 1, acc + found)
      case other => other
    else SearchEdges(t, fuel, dir, edges, j + 1, acc)
  }

  /** The search from `target` succeeded and found `x`. */
  ghost predicate FoundFrom(t: Traversal, fuel: nat, dir: Direction, target: Iri, x: Iri)
    requires dir != Ols.Both
  {
    var sub := DepthFirstSearch(t, fuel, dir, target);
    Succeeded(sub) && x in sub.value.value
  }

  /** The search from `target` succeeded and everything it found is in `r`. */
  ghost predicate Included(t: Traversal, fuel: nat, dir: Direction, target: Iri, r: set<Iri>)
    requires dir != Ols.Both
  {
    var sub := DepthFirstSearch(t, fuel, dir, target);
    Succeeded(sub) && sub.value.value <= r
  }

  /** `x` was found by following one of the traversable edges among `edges[j..]`. */
  ghost predicate ViaEdges(t: Traversal, fuel: nat, dir: Direction, edges: seq<Edge>, j: nat, x: Iri)
    requires dir != Ols.Both
  {
    exists k :: j <= k < |edges| && t.shouldTraverse(edges[k]) && FoundFrom(t, fuel, dir, edges[k].obj.value, x)
  }

  /** `x` is a subject among `data[i..]` whose batch matches. */
  ghost predicate MatchedSubject(t: Traversal, data: RdfJson, i: nat, x: Iri) {
    exists k :: i <= k < |data| && data[k].subject == x && t.isMatch(Batch(data[k]))
  }

  /** `x` was found by following a traversable edge of one of the batches of `data[i..]`. */
  ghost predicate ViaSubjects(t: Traversal, fuel: nat, dir: Direction, data: RdfJson, i: nat, x: Iri)
    requires dir != Ols.Both
  {
    exists k, e :: i <= k < |data| && e in Batch(data[k]) && t.shouldTraverse(e) && FoundFrom(t, fuel, dir, e.obj.value, x)
  }

  lemma IncludedGrows(t: Traversal, fuel: nat, dir: Direction, target: Iri, small: set<Iri>, large: set<Iri>)
    requires dir != Ols.Both && Included(t, fuel, dir, target, small) && small <= large
    ensures Included(t, fuel, dir, target, large)
  {
  }

  lemma {:induction false} SearchEdgesSound(t: Traversal, fuel: nat, dir: Direction, edges: seq<Edge>, j: nat, acc: set<Iri>)
    requires dir != Ols.Both && j <= |edges|
    requires Succeeded(SearchEdges(t, fuel, dir, edges, j, acc))
    ensures var r := SearchEdges(t, fuel, dir, edges, j, acc).value.value;
      && acc <= r
      && (forall k :: j <= k < |edges| && t.shouldTraverse(edges[k]) ==> Included(t, fuel, dir, edges[k].obj.value, r))
      && (forall x :: x in r ==> (x in acc || ViaEdges(t, fuel, dir, edges, j, x)))
    decreases |edges| - j
  {
    if j < |edges| {
      var r := SearchEdges(t, fuel, dir, edges, j, acc).value.value;
      if t.shouldTraverse(edges[j]) {
        var found := DepthFirstSearch(t, fuel, dir, edges[j].obj.value).value.value;
        SearchEdgesSound(t, fuel, dir, edges, j + 1, acc + found);
        forall x | x in r ensures x in acc || ViaEdges(t, fuel, dir, edges, j, x) {
          if x !in acc + found {
            var k :| j + 1 <= k < |edges| && t.shouldTraverse(edges[k]) && FoundFrom(t, fuel, dir, edges[k].obj.value, x);
          } else if x !in acc {
            assert FoundFrom(t, fuel, dir, edges[j].obj.value, x);
          }
        }
      } else {
        SearchEdgesSound(t, fuel, dir, edges, j + 1, acc);
        forall x | x in r ensures x in acc || ViaEdges(t, fuel, dir, edges, j, x) {
          if x !in acc {
            var k :| j + 1 <= k < |edges| && t.shouldTraverse(edges[k]) && FoundFrom(t, fuel, dir, edges[k].obj.value, x);
          }
        }
      }
    }
  }

  /** Everything accumulated so far, every matching subject and every traversable
      edge's search result ends up in the result. */
  lemma {:induction false} SearchSubjectsComplete(t: Traversal, fuel: nat, dir: Direction, data: RdfJson, i: nat, acc: set<Iri>)
    requires dir != Ols.Both && i <= |data|
    requires Succeeded(SearchSubjects(t, fuel, dir, data, i, acc))
    ensures var r := SearchSubjects(t, fuel, dir, data, i, acc).value.value;
      && acc <= r
      && (forall k :: i <= k < |data| && t.isMatch(Batch(data[k])) ==> data[k].subject in r)
      && (forall k, e :: i <= k < |data| && e in Batch(data[k]) && t.shouldTraverse(e) ==> Included(t, fuel, dir, e.obj.value, r))
    decreases |data| - i
  {
    if i < |data| {
      var batch := Batch(data[i]);
      var matched := if t.isMatch(batch) then acc + {data[i].subject} else acc;
      var found := SearchEdges(t, fuel, dir, batch, 0, matched).value.value;
      var r := SearchSubjects(t, fuel, dir, data, i, acc).value.value;
      assert r == SearchSubjects(t, fuel, dir, data, i + 1, found).value.value;
      SearchEdgesSound(t, fuel, dir, batch, 0, matched);
      SearchSubjectsComplete(t, fuel, dir, data, i + 1, found);
      assert acc <= matched <= found <= r;
      forall k | i <= k < |data| && t.isMatch(Batch(data[k])) ensures data[k].subject in r {
        if k == i {
          assert data[i].subject in matched;
        }
      }
      forall e | e in batch && t.shouldTraverse(e) ensures Included(t, fuel, dir, e.obj.value, r) {
        var k :| 0 <= k < |batch| && batch[k] == e;
        IncludedGrows(t, fuel, dir, e.obj.value, found, r);
      }
    }
  }

  /** Nothing enters the result except a matching subject or a traversable edge's
      search result. */
  lemma {:induction false} SearchSubjectsSound(t: Traversal, fuel: nat, dir: Direction, data: RdfJson, i: nat, acc: set<Iri>)
    requires dir != Ols.Both && i <= |data|
    requires Succeeded(SearchSubjects(t, fuel, dir, data, i, acc))
    ensures forall x :: x in SearchSubjects(t, fuel, dir, data, i, acc).value.value ==>
      (x in acc || MatchedSubject(t, data, i, x) || ViaSubjects(t, fuel, dir, data, i, x))
    decreases |data| - i
  {
    if i < |data| {
      var batch := Batch(data[i]);
      var matched := if t.isMatch(batch) then acc + {data[i].subject} else acc;
      SearchEdgesSound(t, fuel, dir, batch, 0, matched);
      var found := SearchEdges(t, fuel, dir, batch, 0, matched).value.value;
      SearchSubjectsSound(t, fuel, dir, data, i + 1, found);
      var r := SearchSubjects(t, fuel, dir, data, i, acc).value.value;
      forall x | x in r ensures x in acc || MatchedSubject(t, data, i, x) || ViaSubjects(t, fuel, dir, data, i, x) {
        if x !in found {
          if MatchedSubject(t, data, i + 1, x) {
            var k :| i + 1 <= k < |data| && data[k].subject == x && t.isMatch(Batch(data[k]));
          } else {
            assert ViaSubjects(t, fuel, dir, data, i + 1, x);
            var k, e :| i + 1 <= k < |data| && e in Batch(data[k]) && t.shouldTraverse(e) && FoundFrom(t, fuel, dir, e.obj.value, x);
          }
        } else if x !in matched {
          assert ViaEdges(t, fuel, dir, batch, 0, x);
          var k :| 0 <= k < |batch| && t.shouldTraverse(batch[k]) && FoundFrom(t, fuel, dir, batch[k].obj.value, x);
          assert batch[k] in Batch(data[i]);
        } else if x !in acc {
          assert x == data[i].subject && t.isMatch(batch);
        }
      }
    }
  }

  /** What a successful single-direction search returns: exactly the subjects of the
      fetched statements whose batch matches, together with whatever the searches from
      the objects of the traversable edges return, all of which must succeed one level
      of nesting down. */
  lemma SearchCharacterization(t: Traversal, fuel: nat, dir: Direction, iri: Iri)
    requires dir != Ols.Both
    requires Succeeded(DepthFirstSearch(t, fuel, dir, iri))
    ensures 0 < fuel && t.fetch(NodeQuery(dir, iri)).Success?
    ensures var data := t.fetch(NodeQuery(dir, iri)).value;
            var r := DepthFirstSearch(t, fuel, dir, iri).value.value;
      && (forall k :: 0 <= k < |data| && t.isMatch(Batch(data[k])) ==> data[k].subject in r)
      && (forall k, e :: 0 <= k < |data| && e in Batch(data[k]) && t.shouldTraverse(e) ==> Included(t, fuel - 1, dir, e.obj.value, r))
      && (forall x :: x in r ==> (MatchedSubject(t, data, 0, x) || ViaSubjects(t, fuel - 1, dir, data, 0, x)))
  {
    var data := t.fetch(NodeQuery(dir, iri)).value;
    SearchSubjectsComplete(t, fuel - 1, dir, data, 0, {});
    SearchSubjectsSound(t, fuel - 1, dir, data, 0, {});
  }

  lemma {:induction false} SearchEdgesFinishes(t: Traversal, fuel: nat, dir: Direction, edges: seq<Edge>, j: nat, acc: set<Iri>)
    requires dir != Ols.Both && j <= |edges|
    requires forall k :: j <= k < |edges| && t.shouldTraverse(edges[k]) ==> Succeeded(DepthFirstSearch(t, fuel, dir, edges[k].obj.value))
    ensures Succeeded(SearchEdges(t, fuel, dir, edges, j, acc))
    decreases |edges| - j
  {
    if j < |edges| {
      if t.shouldTraverse(edges[j]) {
        SearchEdgesFinishes(t, fuel, dir, edges, j + 1, acc + DepthFirstSearch(t, fuel, dir, edges[j].obj.value).value.value);
      } else {
        SearchEdgesFinishes(t, fuel, dir, edges, j + 1, acc);
      }
    }
  }

  lemma {:induction false} SearchSubjectsFinishes(t: Traversal, fuel: nat, dir: Direction, data: RdfJson, i: nat, acc: set<Iri>)
    requires dir != Ols.Both && i <= |data|
    requires forall k, e :: i <= k < |data| && e in Batch(data[k]) && t.shouldTraverse(e) ==> Succeeded(DepthFirstSearch(t, fuel, dir, e.obj.value))
    ensures Succeeded(SearchSubjects(t, fuel, dir, data, i, acc))
    decreases |data| - i
  {
    if i < |data| {
      var batch := Batch(data[i]);
      var matched := if t.isMatch(batch) then acc + {data[i].subject} else acc;
      forall k | 0 <= k < |batch| && t.shouldTraverse(batch[k])
        ensures Succeeded(DepthFirstSearch(t, fuel, dir, batch[k].obj.value))
      {
        assert batch[k] in Batch(data[i]);
      }
      SearchEdgesFinishes(t, fuel, dir, batch, 0, matched);
      SearchSubjectsFinishes(t, fuel, dir, data, i + 1, SearchEdges(t, fuel, dir, batch, 0, matched).value.value);
    }
  }

  /** The converse of the characterization: once the statements are fetched and every
      search one level down succeeds, the search succeeds. */
  lemma SearchFinishes(t: Traversal, fuel: nat, dir: Direction, iri: Iri)
    requires dir != Ols.Both && 0 < fuel && t.fetch(NodeQuery(dir, iri)).Success?
    requires var data := t.fetch(NodeQuery(dir, iri)).value;
      forall k, e :: 0 <= k < |data| && e in Batch(data[k]) && t.shouldTraverse(e) ==>
        Succeeded(DepthFirstSearch(t, fuel - 1, dir, e.obj.value))
    ensures Succeeded(DepthFirstSearch(t, fuel, dir, iri))
  {
    SearchSubjectsFinishes(t, fuel - 1, dir, t.fetch(NodeQuery(dir, iri)).value, 0, {});
  }

  /** `err` is what the statements request of some node answered in direction `dir`. */
  ghost predicate FetchedError(t: Traversal, dir: Direction, err: GraphDbError)
    requires dir != Ols.Both
  {
    exists y :: t.fetch(NodeQuery(dir, y)) == Failure(err)
  }

  /** A failing search fails with the error a statements request of one of the nodes it
      reached answered, in the search's direction (either one for `Both`): a nested
      search's error is passed up unchanged. */
  lemma {:induction false} SearchErrorIsFetched(t: Traversal, fuel: nat, dir: Direction, iri: Iri)
    ensures var r := DepthFirstSearch(t, fuel, dir, iri);
      r.Some? && r.value.Failure? ==>
        if dir == Ols.Both then FetchedError(t, Ols.Outgoing, r.value.error) || FetchedError(t, Ols.Incoming, r.value.error)
        else FetchedError(t, dir, r.value.error)
    decreases fuel, if dir == Ols.Both then 1 else 0, 0
  {
    if dir == Ols.Both {
      SearchErrorIsFetched(t, fuel, Ols.Outgoing, iri);
      if Succeeded(DepthFirstSearch(t, fuel, Ols.Outgoing, iri)) {
        SearchErrorIsFetched(t, fuel, Ols.Incoming, iri);
      }
    } else if 0 < fuel {
      match t.fetch(NodeQuery(dir, iri))
      case Failure(e) =>
        assert t.fetch(NodeQuery(dir, iri)) == Failure(e);
      case Success(data) =>
        SubjectsErrorIsFetched(t, fuel - 1, dir, data, 0, {});
    }
  }

  lemma {:induction false} SubjectsErrorIsFetched(t: Traversal, fuel: nat, dir: Direction, data: RdfJson, i: nat, acc: set<Iri>)
    requires dir != Ols.Both && i <= |data|
    ensures var r := SearchSubjects(t, fuel, dir, data, i, acc);
      r.Some? && r.value.Failure? ==> FetchedError(t, dir, r.value.error)
    decreases fuel, 2, |data| - i
  {
    if i < |data| {
      var batch := Batch(data[i]);
      var matched := if t.isMatch(batch) then acc + {data[i].subject} else acc;
      EdgesErrorIsFetched(t, fuel, dir, batch, 0, matched);
      var found := SearchEdges(t, fuel, dir, batch, 0, matched);
      if Succeeded(found) {
        SubjectsErrorIsFetched(t, fuel, dir, data, i + 1, found.value.value);
      }
    }
  }

  lemma {:induction false} EdgesErrorIsFetched(t: Traversal, fuel: nat, dir: Direction, edges: seq<Edge>, j: nat, acc: set<Iri>)
    requires dir != Ols.Both && j <= |edges|
    ensures var r := SearchEdges(t, fuel, dir, edges, j, acc);
      r.Some? && r.value.Failure? ==> FetchedError(t, dir, r.value.error)
    decreases fuel, 1, |edges| - j
  {
    if j < |edges| {
      if t.shouldTraverse(edges[j]) {
        SearchErrorIsFetched(t, fuel, dir, edges[j].obj.value);
        var sub := DepthFirstSearch(t, fuel, dir, edges[j].obj.value);
        if Succeeded(sub) {
          EdgesErrorIsFetched(t, fuel, dir, edges, j + 1, acc + sub.value.value);
        }
      } else {
        EdgesErrorIsFetched(t, fuel, dir, edges, j + 1, acc);
      }
    }
  }

  /** The bound only cuts a search short: a search that finished within `fuel` finishes
      identically with any larger bound. */
  lemma {:induction false} MoreFuel(t: Traversal, fuel: nat, more: nat, dir: Direction, iri: Iri)
    requires fuel <= more && DepthFirstSearch(t, fuel, dir, iri).Some?
    ensures DepthFirstSearch(t, more, dir, iri) == DepthFirstSearch(t, fuel, dir, iri)
    decreases fuel, if dir == Ols.Both then 1 else 0, 0
  {
    if dir == Ols.Both {
      MoreFuel(t, fuel, more, Ols.Outgoing, iri);
      if Succeeded(DepthFirstSearch(t, fuel, Ols.Outgoing, iri)) {
        MoreFuel(t, fuel, more, Ols.Incoming, iri);
      }
    } else if t.fetch(NodeQuery(dir, iri)).Success? {
      SubjectsMoreFuel(t, fuel - 1, more - 1, dir, t.fetch(NodeQuery(dir, iri)).value, 0, {});
    }
  }

  lemma {:induction false} SubjectsMoreFuel(t: Traversal, fuel: nat, more: nat, dir: Direction, data: RdfJson, i: nat, acc: set<Iri>)
    requires dir != Ols.Both && i <= |data| && fuel <= more
    requires SearchSubjects(t, fuel, dir, data, i, acc).Some?
    ensures SearchSubjects(t, more, dir, data, i, acc) == SearchSubjects(t, fuel, dir, data, i, acc)
    decreases fuel, 2, |data| - i
  {
    if i < |data| {
      var batch := Batch(data[i]);
      var matched := if t.isMatch(batch) then acc + {data[i].subject} else acc;
      EdgesMoreFuel(t, fuel, more, dir, batch, 0, matched);
      var found := SearchEdges(t, fuel, dir, batch, 0, matched);
      if Succeeded(found) {
        SubjectsMoreFuel(t, fuel, more, dir, data, i + 1, found.value.value);
      }
    }
  }

  lemma {:induction false} EdgesMoreFuel(t: Traversal, fuel: nat, more: nat, dir: Direction, edges: seq<Edge>, j: nat, acc: set<Iri>)
    requires dir != Ols.Both && j <= |edges| && fuel <= more
    requires SearchEdges(t, fuel, dir, edges, j, acc).Some?
    ensures SearchEdges(t, more, dir, edges, j, acc) == SearchEdges(t, fuel, dir, edges, j, acc)
    decreases fuel, 1, |edges| - j
  {
    if j < |edges| {
      if t.shouldTraverse(edges[j]) {
        var sub := DepthFirstSearch(t, fuel, dir, edges[j].obj.value);
        MoreFuel(t, fuel, more, dir, edges[j].obj.value);
        if Succeeded(sub) {
          EdgesMoreFuel(t, fuel, more, dir, edges, j + 1, acc + sub.value.value);
        }
      } else {
        EdgesMoreFuel(t, fuel, more, dir, edges, j + 1, acc);
      }
    }
  }

  /** Every traversable edge fetched for `iri` leads to an IRI of lower rank. */
  ghost predicate RankedAt(t: Traversal, rank: Iri -> nat, dir: Direction, iri: Iri)
    requires dir != Ols.Both
  {
    t.fetch(NodeQuery(dir, iri)).Success? ==>
      var data := t.fetch(NodeQuery(dir, iri)).value;
      forall k, e :: 0 <= k < |data| && e in Batch(data[k]) && t.shouldTraverse(e) ==> rank(e.obj.value) < rank(iri)
  }

  /** A sufficient condition for the search to finish: when some rank decreases along
      every traversable edge, a bound above the start's rank is never reached. */
  lemma {:induction false} RankedSearchFinishes(t: Traversal, rank: Iri -> nat, fuel: nat, dir: Direction, iri: Iri)
    requires dir != Ols.Both && forall y :: RankedAt(t, rank, dir, y)
    requires rank(iri) < fuel
    ensures DepthFirstSearch(t, fuel, dir, iri).Some?
    decreases fuel, 0, 0
  {
    if t.fetch(NodeQuery(dir, iri)).Success? {
      assert RankedAt(t, rank, dir, iri);
      RankedSubjectsFinish(t, rank, fuel - 1, dir, t.fetch(NodeQuery(dir, iri)).value, 0, {});
    }
  }

  lemma {:induction false} RankedSubjectsFinish(t: Traversal, rank: Iri -> nat, fuel: nat, dir: Direction, data: RdfJson, i: nat, acc: set<Iri>)
    requires dir != Ols.Both && forall y :: RankedAt(t, rank, dir, y)
    requires i <= |data|
    requires forall k, e :: i <= k < |data| && e in Batch(data[k]) && t.shouldTraverse(e) ==> rank(e.obj.value) < fuel
    ensures SearchSubjects(t, fuel, dir, data, i, acc).Some?
    decreases fuel, 2, |data| - i
  {
    if i < |data| {
      var batch := Batch(data[i]);
      var matched := if t.isMatch(batch) then acc + {data[i].subject} else acc;
      forall k | 0 <= k < |batch| && t.shouldTraverse(batch[k]) ensures rank(batch[k].obj.value) < fuel {
        assert batch[k] in Batch(data[i]);
      }
      RankedEdgesFinish(t, rank, fuel, dir, batch, 0, matched);
      var found := SearchEdges(t, fuel, dir, batch, 0, matched);
      if Succeeded(found) {
        RankedSubjectsFinish(t, rank, fuel, dir, data, i + 1, found.value.value);
      }
    }
  }

  lemma {:induction false} RankedEdgesFinish(t: Traversal, rank: Iri -> nat, fuel: nat, dir: Direction, edges: seq<Edge>, j: nat, acc: set<Iri>)
    requires dir != Ols.Both && forall y :: RankedAt(t, rank, dir, y)
    requires j <= |edges|
    requires forall k :: j <= k < |edges| && t.shouldTraverse(edges[k]) ==> rank(edges[k].obj.value) < fuel
    ensures SearchEdges(t, fuel, dir, edges, j, acc).Some?
    decreases fuel, 1, |edges| - j
  {
    if j < |edges| {
      if t.shouldTraverse(edges[j]) {
        RankedSearchFinishes(t, rank, fuel, dir, edges[j].obj.value);
        var sub := DepthFirstSearch(t, fuel, dir, edges[j].obj.value);
        if Succeeded(sub) {
          RankedEdgesFinish(t, rank, fuel, dir, edges, j + 1, acc + sub.value.value);
        }
      } else {
        RankedEdgesFinish(t, rank, fuel, dir, edges, j + 1, acc);
      }
    }
  }

  /** Incoming data is about statements whose object is the start IRI, and the search
      recurses on the object: a single traversable incoming statement makes the search
      re-enter its own start, so no bound lets it succeed, in either the incoming or the
      `Both` direction. */
  lemma {:induction false} IncomingRecursesOnItself(t: Traversal, fuel: nat, iri: Iri, k: nat, e: Edge)
    requires t.fetch(NodeQuery(Ols.Incoming, iri)).Success?
    requires var data := t.fetch(NodeQuery(Ols.Incoming, iri)).value;
             k < |data| && e in Batch(data[k]) && e.obj.value == iri && t.shouldTraverse(e)
    ensures !Succeeded(DepthFirstSearch(t, fuel, Ols.Incoming, iri))
    ensures !Succeeded(DepthFirstSearch(t, fuel, Ols.Both, iri))
    decreases fuel
  {
    if Succeeded(DepthFirstSearch(t, fuel, Ols.Incoming, iri)) {
      SearchCharacterization(t, fuel, Ols.Incoming, iri);
      assert Included(t, fuel - 1, Ols.Incoming, e.obj.value, DepthFirstSearch(t, fuel, Ols.Incoming, iri).value.value);
      IncomingRecursesOnItself(t, fuel - 1, iri, k, e);
    }
  }

  // ---------------------------------------------------------------- labels

  datatype Node = Node(iri: Iri, name: string)

  /** The predicates stored for subject `s`, if any. */
  function SubjectEntry(data: RdfJson, s: Iri): (r: Option<seq<PredicateObjects>>)
    ensures r.None? <==> forall k :: 0 <= k < |data| ==> data[k].subject != s
    ensures r.Some? ==> exists k :: 0 <= k < |data| && data[k].subject == s && data[k].predicates == r.value
  {
    if |data| == 0 then None
    else if data[0].subject == s then Some(data[0].predicates)
    else SubjectEntry(data[1..], s)
  }

  /** The objects stored under predicate `p`, if any. */
  function PredicateEntry(preds: seq<PredicateObjects>, p: Iri): (r: Option<seq<Object>>)
    ensures r.None? <==> forall k :: 0 <= k < |preds| ==> preds[k].pred != p
    ensures r.Some? ==> exists k :: 0 <= k < |preds| && preds[k].pred == p && preds[k].objects == r.value
  {
    if |preds| == 0 then None
    else if preds[0].pred == p then Some(preds[0].objects)
    else PredicateEntry(preds[1..], p)
  }

  predicate IsEnglish(o: Object) {
    o.lang == Some("en")
  }

  /** The index of the first English label at or after `from`. */
  function FirstEnglish(labels: seq<Object>, from: nat): (r: Option<nat>)
    requires from <= |labels|
    ensures r.None? <==> forall k :: from <= k < |labels| ==> !IsEnglish(labels[k])
    ensures r.Some? ==> from <= r.value < |labels| && IsEnglish(labels[r.value]) &&
                        forall k :: from <= k < r.value ==> !IsEnglish(labels[k])
    decreases |labels| - from
  {
    if from == |labels| then None
    else if IsEnglish(labels[from]) then Some(from)
    else FirstEnglish(labels, from + 1)
  }

  /** The first English label, else the first label, else "N/A". */
  function ChooseLabel(labels: seq<Object>): (r: string)
    ensures (exists k :: 0 <= k < |labels| && IsEnglish(labels[k])) ==>
      exists k :: 0 <= k < |labels| && IsEnglish(labels[k]) && (forall j :: 0 <= j < k ==> !IsEnglish(labels[j])) && r == labels[k].value
    ensures (forall k :: 0 <= k < |labels| ==> !IsEnglish(labels[k])) && |labels| > 0 ==> r == labels[0].value
    ensures |labels| == 0 ==> r == "N/A"
  {
    match FirstEnglish(labels, 0)
    case Some(k) => labels[k].value
    case None => if |labels| > 0 then labels[0].value else "N/A"
  }

  /** The node for `iri` with its label: the label statements are fetched by subject and
      label predicate; a reply without the subject or without the predicate is a decoding
      error. */
  function NodeFor(fetch: Query -> Result<RdfJson, GraphDbError>, iri: Iri): (r: Result<Node, GraphDbError>)
    ensures var reply := fetch(Query(Some(iri), Some(LabelPredicate), None));
      && (reply.Failure? ==> r == Failure(reply.error))
      && (reply.Success? && SubjectEntry(reply.value, iri).None? ==> r == Failure(Decoding))
      && (reply.Success? && SubjectEntry(reply.value, iri).Some? ==>
            var labels := PredicateEntry(SubjectEntry(reply.value, iri).value, LabelPredicate);
            && (labels.None? ==> r == Failure(Decoding))
            && (labels.Some? ==> r == Success(Node(iri, ChooseLabel(labels.value)))))
  {
    match fetch(Query(Some(iri), Some(LabelPredicate), None))
    case Failure(e) => Failure(e)
    case Success(data) =>
      match SubjectEntry(data, iri)
      case None => Failure(Decoding)
      case Some(preds) =>
        match PredicateEntry(preds, LabelPredicate)
        case None => Failure(Decoding)
        case Some(labels) => Success(Node(iri, ChooseLabel(labels)))
  }
}

=== FILE: seqs.dfy ===
/** Sequence helpers standing in for Swift's `filter`, `map` and `contains`. */
module Seqs {

  /** Keeps the elements satisfying `p`, in their original order. */
  function Filter<T(!new)>(s: seq<T>, p: T -> bool): (r: seq<T>)
    ensures |r| <= |s|
    ensures forall x :: x in r <==> x in s && p(x)
  {
    if |s| == 0 then []
    else (if p(s[0]) then [s[0]] else []) + Filter(s[1..], p)
  }

  /** Filtering distributes over concatenation: the filter never reorders elements. */
  lemma {:induction false} FilterConcat<T(!new)>(a: seq<T>, b: seq<T>, p: T -> bool)
    ensures Filter(a + b, p) == Filter(a, p) + Filter(b, p)
  {
    if |a| == 0 {
      assert a + b == b;
    } else {
      assert (a + b)[1..] == a[1..] + b;
      FilterConcat(a[1..], b, p);
    }
  }

  /** Applies `f` to every element. */
  function Map<T, U>(s: seq<T>, f: T -> U): (r: seq<U>)
    ensures |r| == |s|
    ensures forall i :: 0 <= i < |s| ==> r[i] == f(s[i])
  {
    if |s| == 0 then [] else [f(s[0])] + Map(s[1..], f)
  }

  /** Mapping distributes over concatenation. */
  lemma {:induction false} MapConcat<T, U>(a: seq<T>, b: seq<T>, f: T -> U)
    ensures Map(a + b, f) == Map(a, f) + Map(b, f)
  {
    if |a| == 0 {
      assert a + b == b;
    } else {
      assert (a + b)[1..] == a[1..] + b;
      MapConcat(a[1..], b, f);
    }
  }

  /** No element occurs twice. */
  predicate NoDup<T(==)>(s: seq<T>) {
    forall i, j :: 0 <= i < j < |s| ==> s[i] != s[j]
  }
}

=== FILE: wrappers.dfy ===
/** Failure-carrying wrappers used across the model: `Option` for a value that may be
    absent and `Result` for an operation that may throw. */
module Wrappers {

  datatype Option<+T> = None | Some(value: T)

  datatype Result<+T, +E> = Success(value: T) | Failure(error: E)
}
